=== FILE: README.md ===
# Weapon-detection stream and alert core, modelled in Dafny

This project models the decision logic of a weapon-detection video service and its dataset
curation script:

- the **notification engine** (`NotificationManager`): a cooldown gate with three override
  exceptions, a best-of-window capture, and the state recorded after a successful dispatch;
- the **UI backend stream manager** (`StreamManager`): one pass of the frame loop, which covers
  publishing the latest processed pair, the "latest detections" staleness timeout, the
  time-evicted detection history, the drop-oldest frame queue and feeding the notification
  engine. It also covers the reconnect counter, `start_stream`, the keep-alive monitor and
  `get_latest_processed_frame`;
- the **legacy backend stream manager**: the same loop without history, staleness timeout or
  reconnection;
- the **curation script** `videoToImage.py`:
  - argument parsing and mode dispatch;
  - the video-extension filter;
  - every-nth-frame sampling with the first-qualifying-detection test;
  - image filtering;
  - duplicate removal by content digest.

Everything is pure functions over immutable datatypes, with three exceptions:
`AnnotateImage`, `ProcessVideo` and `RemoveDuplicateImages` are methods with loops, as in the
source. Inputs that the code takes from the world become parameters:

- time becomes `now: real`;
- a camera read becomes `Option<Frame>`;
- the detector's answer becomes `Option<Processed>` or `Results`;
- JPEG encoding becomes `encodeOk`;
- the HTTP POST becomes `SendOutcome = Failed | Delivered(at)`;
- a directory listing becomes `seq<DirEntry>`;
- the file digests become `HashedFile`.

Modules, one file each:
`Wrappers`, `Seqs`, `Detections`, `FrameQueue`, `Lifecycle` (stream_lifecycle.dfy),
`NotificationManager`, `NotificationProperties`, `StreamManager`, `LegacyStreamManager`,
`Text`, `VideoToImage`.

Where the source's own comments promise more than its code does, the model follows the code:

- notification_manager.py:151 says a tied image wins with "more weapon types". The code
  compares the newcomer's number of *distinct* classes with the held set's *raw* number of
  detections (`len(self.best_detections)`). `TieBreakUsesRawCount` exhibits a set with more
  categories that loses.
- notification_manager.py:114 reads "Number of weapons changed", but the count recorded after a
  send is the raw detection count, while the gate compares it with a distinct class count.
  `RawCountReopensDuringCooldown` shows a repeat alert that re-opens a window because of this.
- notification_manager.py:110 reads "Threat category changed". The category the gate compares
  is `list(weapon_types)[0]`, an arbitrary member of a set, not a dominant class. It is the
  parameter `pick`, required to be a member of that set. The category recorded after a send is
  the class of the *first* best detection.
- stream_manager.py:76 reads "Reset reconnect attempts on successful connection". The reset
  happens once the stream object has been started, not on each successful read.
- stream_manager.py:169 reads "Handle reconnection", but that handler is never reached in a
  working form (see "## Findings").

## Model

| member | source | states |
|---|---|---|
| Detections.MaxConfidence | UI/backend/stream_utils/notification_manager.py:58-59 | the result bounds every confidence in the list and is the confidence of one of them |
| Detections.ClassSet | UI/backend/stream_utils/notification_manager.py:62 | a class name is in the set exactly when some detection carries it |
| Detections.ClassCountAtMostLength | UI/backend/stream_utils/notification_manager.py:62-63 | the weapon-type count never exceeds the number of detections |
| Detections.AboveThreshold | UI/backend/stream_utils/notification_manager.py:48-51 | keeps exactly the detections whose confidence reaches the threshold, in their input order (a subsequence), each as often as it occurs in the input |
| Seqs.FilterCounts | UI/backend/stream_utils/notification_manager.py:48-51 | a filter keeps every occurrence of an element that passes and none of one that fails |
| Seqs.FilterIsSubsequence | UI/backend/stream_utils/stream_manager.py:133-136 | a list comprehension with a condition never reorders the survivors |
| Seqs.FilterAppend | data_curation_tool/src/videoToImage.py:152-160 | filtering a concatenation is concatenating the filtered parts |
| FrameQueue.Put | UI/backend/stream_utils/stream_manager.py:149-157 | a bounded queue afterwards holds the newest `maxsize` items offered, ending with the new frame, and never exceeds its capacity; a queue with `maxsize <= 0` is unbounded and only appends |
| FrameQueue.PutAll | UI/backend/stream_utils/stream_manager.py:149-157 | any number of puts keeps a bounded queue within capacity |
| FrameQueue.PutAllKeepsNewest | UI/backend/stream_utils/stream_manager.py:149-157 | after any sequence of puts the queue is exactly the newest `maxsize` frames in arrival order: the oldest are the ones dropped |
| Lifecycle.StartStream | UI/backend/stream_utils/stream_manager.py:60-65 | an inactive manager becomes active with one new pipeline task; an active manager is unchanged; the keep-alive counter is not touched |
| Lifecycle.StartStreamIdempotent | UI/backend/stream_utils/stream_manager.py:60-65 | starting twice is starting once |
| Lifecycle.MonitorTick | UI/backend/stream_utils/stream_manager.py:180-194 | each tick lowers the counter by one; once it is not positive, the stream is inactive and the task is dropped |
| Lifecycle.ResetKeepAlive | UI/backend/api/routes/video.py:40 | a keep-alive request sets the counter to the requested value and changes nothing else |
| Lifecycle.TicksUntilExpiry | UI/backend/stream_utils/stream_manager.py:180-194 | an active stream with counter c stays active with counter c-k for k < c ticks and is stopped from tick max(c,1) on |
| Lifecycle.StaysStopped | UI/backend/stream_utils/stream_manager.py:184-194 | a stream stopped by the monitor stays stopped under further ticks; the monitor itself ends with the stopping tick (`break`), so those later ticks are never performed by the source |
| Lifecycle.KeepAliveRequestLasts | UI/backend/api/routes/video.py:40 | after a keep-alive request the stream survives 99 ticks and the 100th stops it |
| Lifecycle.StartupKeepsStreamRunning | UI/backend/main.py:285 | the start-up counter keeps a started stream running for 999999 ticks |
| NotificationManager.ShouldStartCapture | UI/backend/stream_utils/notification_manager.py:94-126 | outside the cooldown, admits exactly the sets whose confidence reaches the threshold; inside it, admits exactly the sets that do not repeat the last send (same category, same count, and a rise below the increase threshold) |
| NotificationManager.IsBetterImage | UI/backend/stream_utils/notification_manager.py:128-155 | with no held image anything wins; a set above every held confidence wins; a set below some held confidence loses; at equal top confidence it wins iff its distinct class count exceeds the held raw count; an empty held list counts as confidence 0 |
| NotificationManager.Consider | UI/backend/stream_utils/notification_manager.py:80-84 | the held best frame, time and detections are replaced exactly when the set ranks better, and nothing else changes |
| NotificationManager.SendNotification | UI/backend/stream_utils/notification_manager.py:164-209 | reports success iff an image is held and the POST was delivered; on failure nothing changes; on success the last-send time, category of the first best detection, raw count and top confidence are recorded and the best image and detections are cleared |
| NotificationManager.ProcessDetection | UI/backend/stream_utils/notification_manager.py:34-92 | no qualifying detection means no change; it reports a dispatch iff it was capturing, a detection qualified and the window had elapsed; an idle engine opens a window on this frame exactly when the gate admits the set; only a delivered dispatch changes the last-send fields |
| NotificationProperties.InitialIsValid | UI/backend/stream_utils/notification_manager.py:20-32 | the constructed engine satisfies the capture-window invariant |
| NotificationProperties.ProcessDetectionKeepsValid | UI/backend/stream_utils/notification_manager.py:66-90 | while a window is open, a non-empty best set of qualifying detections is held; every call keeps this |
| NotificationProperties.OutsideCooldownAlwaysOpens | UI/backend/stream_utils/notification_manager.py:66-74 | outside the cooldown an idle engine opens a window on every set with a qualifying detection, on this frame and with the qualifying detections as the best set, and sends nothing |
| NotificationProperties.NoBackToBackDispatch | UI/backend/stream_utils/notification_manager.py:86-90 | a call that dispatched leaves the engine idle, so the next call cannot dispatch |
| NotificationProperties.FailedDispatchKeepsStaleBest | UI/backend/stream_utils/notification_manager.py:204-209 | a failed dispatch closes the window, keeps the stale best image and leaves the last-send fields as they were |
| NotificationProperties.HeldBestNeverDisplacedByItself | UI/backend/stream_utils/notification_manager.py:145-155 | offering the held best set again never replaces it |
| NotificationProperties.TieBreakUsesRawCount | UI/backend/stream_utils/notification_manager.py:151-153 | two guns at 0.8 are not displaced by a gun and a knife at 0.8, although the newcomer has more categories |
| NotificationProperties.RawCountReopensDuringCooldown | UI/backend/stream_utils/notification_manager.py:109-123 | after a send that recorded two detections of one class, a single detection of that class at the same confidence re-opens a window inside the cooldown |
| NotificationProperties.EpisodeBalance | UI/backend/stream_utils/notification_manager.py:66-90 | over any run, dispatches plus the final open window equal openings plus the initial open window: each dispatch closes exactly one opened window |
| NotificationProperties.RunKeepsValid | UI/backend/stream_utils/notification_manager.py:34-92 | the capture-window invariant holds after any run |
| NotificationProperties.WorkedExample | UI/backend/stream_utils/notification_manager.py:34-126 | gun 0.75 at t=0 opens, gun 0.82 at t=1 becomes best, t=3 dispatches and records (3, gun, 1, 0.82), gun 0.85 at t=100 is refused by the cooldown |
| NotificationProperties.ExampleOpens | UI/backend/stream_utils/notification_manager.py:66-74 | the first gun at t=0 opens a window holding that frame, because no category has been sent yet |
| NotificationProperties.ExampleImproves | UI/backend/stream_utils/notification_manager.py:80-84 | a more confident gun inside the window replaces the held image |
| NotificationProperties.ExampleSends | UI/backend/stream_utils/notification_manager.py:86-90 | at the end of the window the held 0.82 image is sent, not the newer 0.70 one, and the send is recorded |
| NotificationProperties.ExampleRepeatSuppressed | UI/backend/stream_utils/notification_manager.py:109-123 | inside the cooldown the same category and count with a rise of 0.03 is not admitted and nothing changes |
| StreamManager.AppendHistory | UI/backend/stream_utils/stream_manager.py:115-121 | a new entry is opened exactly for the first detection or after more than 2 s since the last entry started; time order is kept |
| StreamManager.EvictHistory | UI/backend/stream_utils/stream_manager.py:132-136 | keeps exactly the entries at most 3600 s old, in their order, and keeps time order |
| StreamManager.ExpireLatest | UI/backend/stream_utils/stream_manager.py:126-130 | the latest detections are cleared exactly when a truthy last-detection time is more than 2 s old; otherwise nothing changes (the run-level partner is `LatestDetectionsAfterRun`) |
| StreamManager.FrameStepView | UI/backend/stream_utils/stream_manager.py:110-130 | a pass moves the latest detections and their time as the staleness rule alone says: unprocessed passes leave them, detections replace them, an empty pass clears them once too old |
| StreamManager.PassesView | UI/backend/stream_utils/stream_manager.py:78-130 | over any run, the manager's latest detections and time are those the staleness rule computes |
| StreamManager.QuietPasses | UI/backend/stream_utils/stream_manager.py:126-130 | across passes without detections the latest view stays as it was or is cleared, and it is cleared exactly when its time is truthy and some processed pass comes more than 2 s after it |
| StreamManager.LatestDetectionsAfterRun | UI/backend/stream_utils/stream_manager.py:110-130 | after any run the latest detections are those of the last pass with detections, with its time, or empty with no time exactly when a later processed pass came more than 2 s after it (and its time is not 0) |
| StreamManager.NoDetectionsAfterRun | UI/backend/stream_utils/stream_manager.py:126-130 | in a run without detections the initial latest view stays, or is cleared exactly when its time is truthy and a processed pass comes more than 2 s later |
| StreamManager.FrameStep | UI/backend/stream_utils/stream_manager.py:78-163 | a missing frame or detector answer changes nothing; otherwise the processed pair is published, non-empty detections become the latest with time `now`, empty detections leave the engine alone and expire the latest only after the timeout, no retained history entry is older than an hour, the frame is enqueued drop-oldest iff encoding succeeded, and the lifecycle and reconnect counter are untouched; non-empty detections go to the alert engine and open a history entry before eviction, empty ones leave the engine and only evict |
| StreamManager.Connected | UI/backend/stream_utils/stream_manager.py:76 | an opened connection resets the reconnect counter and changes nothing else |
| StreamManager.StreamError | UI/backend/stream_utils/stream_manager.py:169-178 | the handler as intended: below the bound an error counts one more attempt and changes nothing else; at the bound only `active` changes, to false |
| StreamManager.ConsecutiveFailures | UI/backend/stream_utils/stream_manager.py:169-178 | as intended, k failures in a row raise the counter to min(start+k, 5), and the stream stays active iff start+k <= 5 |
| StreamManager.RestartAfterExhaustionStopsAtFirstFailure | UI/backend/stream_utils/stream_manager.py:169-178 | as intended, the counter is not reset by a restart, so a restarted stream that had exhausted its retries stops at its first failure |
| StreamManager.OuterLoopAsWritten | UI/backend/stream_utils/stream_manager.py:67-78 | as written, the connection loop makes at most one attempt: an opened stream resets the counter, changes nothing else and streams; a failed open ends the task and leaves the manager exactly as it was |
| StreamManager.AsWrittenNeverRetries | UI/backend/stream_utils/stream_manager.py:165-178 | as written, at most one attempt is made, the counter is never raised and the stream is never stopped; a failed open leaves the manager exactly as it was |
| StreamManager.FailedOpenEndsTaskAsWritten | UI/backend/stream_utils/stream_manager.py:165-178 | six attempts that each raise in `VideoStream(...).start()`: as written one attempt, still active, counter 0; as intended six attempts, stopped, counter 5 |
| StreamManager.OuterLoop | UI/backend/stream_utils/stream_manager.py:67-78 | the intended connection loop makes at most one attempt per input and streams only with the counter reset |
| StreamManager.OuterLoopGivesUp | UI/backend/stream_utils/stream_manager.py:169-178 | as intended, a running stream whose attempts all fail stops after the attempts its counter has left plus one, with the counter at 5 |
| StreamManager.Start | UI/backend/stream_utils/stream_manager.py:60-65 | `start_stream` on the manager changes only the lifecycle (every other field equals the old one), and nothing at all when active |
| StreamManager.Tick | UI/backend/stream_utils/stream_manager.py:180-194 | a monitor tick changes only the lifecycle (every other field equals the old one) and stops the stream when the counter runs out |
| StreamManager.GetLatestProcessedFrame | UI/backend/stream_utils/stream_manager.py:48-58 | returns the last published frame with its detections, or no frame and no detections |
| StreamManager.LatestPairIsLastProcessed | UI/backend/stream_utils/stream_manager.py:103-106 | right after a processed frame, reading the latest pair returns exactly that frame and its detections |
| StreamManager.FrameStepKeepsValid | UI/backend/stream_utils/stream_manager.py:78-163 | each pass keeps the history time-ordered, the queue within 1000, the reconnect counter within 5 and the engine invariant |
| StreamManager.ControlKeepsValid | UI/backend/stream_utils/stream_manager.py:165-194 | connection, error, start and monitor steps keep the manager invariant |
| StreamManager.InitialIsValid | UI/backend/stream_utils/stream_manager.py:23-46 | the constructed manager satisfies its invariant |
| LegacyStreamManager.FrameStep | backend/stream_manager.py:31-75 | a missing frame or detector answer changes nothing; only a non-empty detection list replaces the latest; the frame is enqueued drop-oldest iff encoding succeeded; the queue stays within 1000 |
| LegacyStreamManager.LatestIsLastNonEmpty | backend/stream_manager.py:52-54 | the latest detections after any run are the most recent non-empty list, however old |
| LegacyStreamManager.RunKeepsQueueBounded | backend/stream_manager.py:66-74 | the queue stays within capacity over any run |
| LegacyStreamManager.StartIgnoredWhileActive | backend/stream_manager.py:18-22 | starting an active stream changes nothing; starting an inactive one creates one task |
| LegacyStreamManager.KeepAliveExpiry | backend/stream_manager.py:79-92 | the monitor stops the stream exactly when its counter runs out |
| LegacyStreamManager.StalenessDiffers | backend/stream_manager.py:52-54 | after a detection-free frame the legacy view still shows a gun, where the UI backend's view has expired |
| Text.Lower | data_curation_tool/src/videoToImage.py:158 | same length, each character lowered, no upper-case ASCII letter left |
| Text.LowerIdempotent | data_curation_tool/src/videoToImage.py:158 | lowering twice is lowering once |
| Text.Strip | data_curation_tool/src/videoToImage.py:257-259 | the result is one contiguous slice of the input, everything before and after it is whitespace, and it neither starts nor ends with whitespace |
| Text.StripKeepsNonBlanks | data_curation_tool/src/videoToImage.py:257-259 | stripping never lengthens, every character kept is from the input, and every non-blank character of the input is kept |
| Text.StripFramed | data_curation_tool/src/videoToImage.py:257-259 | stripping blanks around a part that neither starts nor ends with whitespace gives exactly that part |
| Text.ParseInt | data_curation_tool/src/videoToImage.py:258 | an accepted string holds only digits, whitespace, signs and underscores, with at least one digit; its value is that of all its digits, negative only when it has a minus |
| Text.ParseStripped | data_curation_tool/src/videoToImage.py:258 | the stripped grammar accepts only sign, digit and underscore characters with a digit, reads the digits' value, and gives a negative only for a minus |
| Text.ParseIntPadded | data_curation_tool/src/videoToImage.py:258 | whitespace, an optional sign and a well-formed digit string (single underscores between digits) read as the digits' value, negated for a minus |
| Text.ParseIntOfNatToString | data_curation_tool/src/videoToImage.py:258 | parsing the decimal rendering of n gives n |
| Text.NatToString | data_curation_tool/src/videoToImage.py:118 | a non-empty string of digits |
| Text.NatToStringInjective | data_curation_tool/src/videoToImage.py:118 | different frame numbers render differently |
| Text.ParseFloat | data_curation_tool/src/videoToImage.py:259 | a blank string is rejected |
| Text.ParseFloatUnsigned | data_curation_tool/src/videoToImage.py:259 | a literal starting and ending with a digit reads as its unsigned decimal value |
| Text.ParseFloatDecimal | data_curation_tool/src/videoToImage.py:259 | `0.55` reads as exactly 0.55 |
| Text.ParseFloatNan | data_curation_tool/src/videoToImage.py:259 | any spelling of `nan` with blanks reads as NaN |
| Text.ParseFloatRejectsWord | data_curation_tool/src/videoToImage.py:259-262 | a word such as `gun` is rejected |
| Text.SplitExt | data_curation_tool/src/videoToImage.py:158 | stem and extension concatenate to the name; a non-empty extension starts with its only dot and follows a stem that is not all dots; an empty extension means no dot qualifies |
| Text.Join | data_curation_tool/src/videoToImage.py:154 | an absolute second part wins; otherwise the result is the first part, then one `/` exactly when the first part is non-empty and does not end in `/`, then the second part |
| VideoToImage.ClassArgs | data_curation_tool/src/videoToImage.py:254 | the classes are the entries between the output folder and the last two, none for six or seven entries |
| VideoToImage.NumericArgs | data_curation_tool/src/videoToImage.py:257-262 | both numbers are parsed, or both fall back to 10 and 0.55 when either parse fails |
| VideoToImage.ParseArgv | data_curation_tool/src/videoToImage.py:244-274 | fewer than six entries exit with 1; otherwise the fields are read by position, draw-boxes is true iff the lowered argument is true, 1 or yes, and no classes mean pistol and gun |
| VideoToImage.Main | data_curation_tool/src/videoToImage.py:244-307 | the run yields a job exactly when there are at least six arguments and the mode is videoShots or filterImages, else exit code 1; the job's folders, classes, interval, box drawing and threshold are read from their positions |
| VideoToImage.Dispatch | data_curation_tool/src/videoToImage.py:287-307 | videoShots runs the video job without the confidence, filterImages runs the filter with it, and any other mode exits with 1 |
| VideoToImage.VideoShotsIgnoresConfidence | data_curation_tool/src/videoToImage.py:287-294 | in videoShots mode, changing the last argument to any other parsable float does not change the job |
| VideoToImage.FrontEndArgvDropsLastClass | data_curation_tool/src/main.js:73-80 | with the desktop front end's argument list, the last class is read as the interval, the numbers fall back to their defaults and that class is lost |
| VideoToImage.VideoFiles | data_curation_tool/src/videoToImage.py:145-160 | every regular file whose lowered extension is a video extension is found, and nothing else is |
| VideoToImage.VideoFilesAppend | data_curation_tool/src/videoToImage.py:152-160 | discovery keeps listing order |
| VideoToImage.ExtensionExamples | data_curation_tool/src/videoToImage.py:156-160 | `CLIP.MP4` is a video; a directory named `clip.mp4` is not; `.mp4` has no extension |
| VideoToImage.AnnotateImage | data_curation_tool/src/videoToImage.py:26-80 | returns the image iff some box of some result qualifies, and nothing otherwise |
| VideoToImage.SavesUpToContents | data_curation_tool/src/videoToImage.py:103-122 | an image is written iff its frame index is a multiple of the interval and it has a qualifying detection, under the name carrying that index |
| VideoToImage.OutputNamesDistinct | data_curation_tool/src/videoToImage.py:116-118 | different frames of one video get different file names |
| VideoToImage.ProcessVideo | data_curation_tool/src/videoToImage.py:82-125 | an interval of 0 fails on the first frame; otherwise the writes are exactly the sampled qualifying frames and the count equals them |
| VideoToImage.SameStemSameNames | data_curation_tool/src/videoToImage.py:116-118 | `clip.mp4` and `clip.MOV` write the same file names, so one overwrites the other |
| VideoToImage.ImagesToDelete | data_curation_tool/src/videoToImage.py:171-211 | deletes exactly the loadable images without a qualifying detection |
| VideoToImage.NanThresholdDeletesEveryLoadedImage | data_curation_tool/src/videoToImage.py:198-208 | a NaN confidence deletes every image that loads |
| VideoToImage.FirstIffUnseen | data_curation_tool/src/videoToImage.py:224-228 | a file is the first of its digest exactly when its digest was not yet seen |
| VideoToImage.Dedupe | data_curation_tool/src/videoToImage.py:219-228 | every file is either kept or deleted |
| VideoToImage.DedupeKeepsEveryDigest | data_curation_tool/src/videoToImage.py:219-228 | the kept files carry every digest of the folder and no other |
| VideoToImage.DedupeKeepsDistinctDigests | data_curation_tool/src/videoToImage.py:219-228 | no two kept files share a digest |
| VideoToImage.DedupeDecides | data_curation_tool/src/videoToImage.py:221-228 | every first occurrence is kept, every later occurrence is deleted, and everything kept or deleted comes from the folder |
| VideoToImage.DedupeKeepsFirsts | data_curation_tool/src/videoToImage.py:221-228 | every first occurrence is kept and every kept file is from the folder |
| VideoToImage.DedupeDeletesLater | data_curation_tool/src/videoToImage.py:221-228 | every later occurrence is deleted and every deleted path is that of a later occurrence |
| VideoToImage.RemoveDuplicateImages | data_curation_tool/src/videoToImage.py:213-228 | the loop computes the reference outcome: kept digests distinct and complete, first occurrences kept, later ones deleted |

## Left out

- Camera access, RTSP and `VideoStream`: the read is an input; the one-second camera warm-up and
  the reconnect delay are sleeps and are not modelled.
- asyncio concurrency: the lock around the latest pair, task cancellation and awaiting,
  interleaving with viewers, and the competing-consumer `frame_generator` that drains the queue.
  The model runs passes and monitor ticks one at a time.
- The detector, image resizing, bounding-box drawing, `cv2.imwrite`, JPEG encoding and base64.
  These are opaque inputs or are reduced to their success flag.
- The notification payload, HTTP session and response handling: reduced to `SendOutcome`.
  `save_image.py`, the FastAPI routes and both front ends are not part of this model, apart from
  the two keep-alive constants and the front end's argument list.
- NotificationManager.ProcessDetection: the gate reads the clock a second time; the model
  identifies that reading with the `now` of the call.
- NotificationManager.SendNotification: the last-send time is the clock reading after the POST,
  the `at` of `Delivered`; an exception during encoding or posting is the `Failed` outcome.
- NotificationManager.ShouldStartCapture, NotificationManager.IsBetterImage, StreamManager.ExpireLatest,
  StreamManager.AppendHistory, StreamManager.EvictHistory: times and confidences are exact reals,
  not binary floats. In Python `0.7 - 0.6` is `0.09999999999999998`, so the confidence-rise
  exception does not fire for a rise from 0.6 to 0.7, while the model says it does; the same
  rounding can move the 2 s and 3600 s comparisons at their boundaries.
- LegacyStreamManager.FrameStep: the legacy loop has no `except`, only `finally: vs.stop()`
  (backend/stream_manager.py:30-77), so any exception ends the task with `active` still true.
  Its detector call passes `return_detections=True` (backend/stream_manager.py:42-46) to a
  function that takes only `frame` and `model` (backend/yolo_process.py:4), so every frame that
  is read raises `TypeError` and ends the task. The model describes the pass the code means to
  run, as if the call succeeded; that crash is not modelled.
- StreamManager.FrameStep: an exception inside a pass is not modelled separately. Its effects
  coincide with the skip paths for the reads and detector calls the model takes as inputs.
- Text.Lower, Text.ParseInt, Text.ParseFloat: only ASCII letters are lowered and only ASCII
  digits read. Floats are exact reals, without binary rounding or overflow to infinity.
- Text.ParseInt: its contract gives necessary conditions for acceptance and the value read; the
  exact rejection condition is the grammar in `ParseStripped`, whose acceptance side is
  `ParseIntPadded`.
- Text.ParseFloat: its contract states only that a blank string is rejected. The accepted
  grammar is the function body, with the example lemmas as its partners.
- Text.SplitExt, Text.Join: names without directory separators; `abspath` and `normpath` path
  normalisation is not modelled.
- VideoToImage.AnnotateImage: only in-memory images are modelled. The file-path branch, whose
  `imread` can fail, is not used by the script.
- VideoToImage.ProcessVideo: an unreadable video yields no frames. Negative intervals follow
  Python's remainder, which is zero exactly when Dafny's is.
- VideoToImage.RemoveDuplicateImages: the file digests are inputs; MD5 and file reading are not
  modelled.
- Console output and `sys.exit(0)` after a successful run are not modelled; exit code 1 is the
  `Failure(1)` result.

## Findings

| source | as written | input that shows it | evidently intended | confidence | as-written member | corrected member |
|---|---|---|---|---|---|---|
| UI/backend/stream_utils/stream_manager.py:165-178 | the inner loop catches every `Exception` of a pass, so only `VideoStream(...).start()` (line 73) can raise into the outer handler, with `vs` still unbound; the handler's `vs.stop()` then raises `UnboundLocalError`, the task ends, `active` stays true and the counter never moves | any exception raised by `VideoStream(self.url_rtsp).start()` (line 73) on a started stream: one attempt, no retry, still marked active | count the failure, wait and retry up to 5 times, then stop the stream | not executed | StreamManager.OuterLoopAsWritten, StreamManager.AsWrittenNeverRetries, StreamManager.FailedOpenEndsTaskAsWritten | StreamManager.OuterLoop, StreamManager.StreamError, StreamManager.OuterLoopGivesUp |

=== FILE: detections.dfy ===
/** Frames and the detector's output records shared by the stream pipeline and the alert engine. */
module Detections {
  import Seqs

  /** One decoded image. Its pixels are not modelled; `id` stands for the buffer's identity. */
  datatype Frame = Frame(id: nat)

  /** A frame as JPEG-encoded for the viewer feed; the bytes are not modelled. */
  datatype Encoded = Encoded(frame: Frame)

  /** The detector adapter's answer for one frame: the annotated frame and its detections. */
  datatype Processed = Processed(frame: Frame, detections: seq<Detection>)

  /** One detector record: class label, confidence and bounding box corners. */
  datatype Detection = Detection(className: string, confidence: real, x1: int, y1: int, x2: int, y2: int)

  /** The largest confidence in a non-empty detection list (`max(d["confidence"] for d in ds)`). */
  function MaxConfidence(ds: seq<Detection>): (m: real)
    requires |ds| > 0
    ensures forall i :: 0 <= i < |ds| ==> ds[i].confidence <= m
    ensures exists i :: 0 <= i < |ds| && ds[i].confidence == m
    decreases |ds|
  {
    if |ds| == 1 then ds[0].confidence
    else
      var rest := MaxConfidence(ds[1..]);
      if ds[0].confidence >= rest then ds[0].confidence else rest
  }

  /** The distinct class labels of a detection list (`set(d["class_name"] for d in ds)`). */
  function ClassSet(ds: seq<Detection>): (c: set<string>)
    ensures forall i :: 0 <= i < |ds| ==> ds[i].className in c
    ensures forall n :: n in c ==> exists i :: 0 <= i < |ds| && ds[i].className == n
  {
    set d | d in ds :: d.className
  }

  /** There are never more distinct classes than detections. */
  lemma {:induction false} ClassCountAtMostLength(ds: seq<Detection>)
    ensures |ClassSet(ds)| <= |ds|
    decreases |ds|
  {
    if |ds| > 0 {
      ClassCountAtMostLength(ds[1..]);
      assert ClassSet(ds) == ClassSet(ds[1..]) + {ds[0].className} by {
        forall n | n in ClassSet(ds)
          ensures n in ClassSet(ds[1..]) + {ds[0].className}
        {
          var i :| 0 <= i < |ds| && ds[i].className == n;
          if i > 0 {
            assert ds[1..][i - 1].className == n;
          }
        }
      }
    }
  }

  /** The detections whose confidence reaches `threshold`, in detector order. */
  function AboveThreshold(ds: seq<Detection>, threshold: real): (q: seq<Detection>)
    ensures forall i :: 0 <= i < |q| ==> q[i] in ds && q[i].confidence >= threshold
    ensures forall i :: 0 <= i < |ds| && ds[i].confidence >= threshold ==> ds[i] in q
    ensures Seqs.IsSubsequence(q, ds)
    ensures forall d :: multiset(q)[d] == if d.confidence >= threshold then multiset(ds)[d] else 0
  {
    var reaches := (d: Detection) => d.confidence >= threshold;
    Seqs.FilterIsSubsequence(ds, reaches);
    Seqs.FilterCounts(ds, reaches);
    Seqs.Filter(ds, reaches)
  }
}

=== FILE: frame_queue.dfy ===
/**
 * The frame distribution queue: an `asyncio.Queue(maxsize)` of encoded frames fed with
 * drop-oldest back-pressure, modelled as a sequence whose front is the oldest frame.
 */
module FrameQueue {

  /** Capacity both stream managers give the queue. */
  const MaxSize: int := 1000

  /** `Queue.full()`: a queue with `maxsize <= 0` is unbounded and never full. */
  predicate Full<T>(q: seq<T>, maxsize: int)
  {
    maxsize > 0 && |q| >= maxsize
  }

  /** The newest `n` items of `s`, oldest first. */
  function Newest<T>(s: seq<T>, n: nat): seq<T>
  {
    if n >= |s| then s else s[|s| - n..]
  }

  /**
   * Enqueue with drop-oldest back-pressure: when full, `get_nowait` removes the front item,
   * then `put` appends `x`. The producer never waits.
   */
  function Put<T>(q: seq<T>, x: T, maxsize: int): (r: seq<T>)
    ensures maxsize > 0 && |q| <= maxsize ==> |r| <= maxsize && r == Newest(q + [x], maxsize)
    ensures maxsize <= 0 ==> r == q + [x]
    ensures |r| > 0 && r[|r| - 1] == x
  {
    if Full(q, maxsize) then q[1..] + [x] else q + [x]
  }

  /** Enqueue every item of `xs` in order. */
  function PutAll<T>(q: seq<T>, xs: seq<T>, maxsize: int): (r: seq<T>)
    requires maxsize <= 0 || |q| <= maxsize
    ensures maxsize > 0 ==> |r| <= maxsize
    decreases |xs|
  {
    if |xs| == 0 then q
    else PutAll(Put(q, xs[0], maxsize), xs[1..], maxsize)
  }

  /**
   * After any sequence of puts into a bounded queue, it holds exactly the newest
   * `maxsize` items ever offered, in arrival order: FIFO with the oldest evicted first.
   */
  lemma {:induction false} PutAllKeepsNewest<T>(q: seq<T>, xs: seq<T>, maxsize: int)
    requires 0 < maxsize && |q| <= maxsize
    ensures PutAll(q, xs, maxsize) == Newest(q + xs, maxsize)
    decreases |xs|
  {
    if |xs| > 0 {
      var s := q + [xs[0]];
      var q' := Put(q, xs[0], maxsize);
      PutAllKeepsNewest(q', xs[1..], maxsize);
      NewestAppend(s, xs[1..], maxsize);
      AppendFirst(q, xs);
    }
  }

  lemma AppendFirst<T>(q: seq<T>, xs: seq<T>)
    requires |xs| > 0
    ensures q + [xs[0]] + xs[1..] == q + xs
  {
  }

  /** Keeping the newest `n` before appending more and trimming again changes nothing. */
  lemma NewestAppend<T>(s: seq<T>, t: seq<T>, n: nat)
    ensures Newest(Newest(s, n) + t, n) == Newest(s + t, n)
  {
    if n < |s| {
      var k := |s| - n;
      var u := s[k..] + t;
      assert Newest(s, n) == s[k..];
      assert (s + t)[k..] == u;
      if |t| == 0 {
        assert s + t == s && u == s[k..];
      } else {
        assert Newest(u, n) == u[|t|..];
        assert Newest(s + t, n) == (s + t)[k + |t|..];
        assert (s + t)[k + |t|..] == (s + t)[k..][|t|..];
      }
    }
  }
}

=== FILE: legacy_stream_manager.dfy ===
/**
 * The older `StreamManager` snapshot of the first backend: the same queue and keep-alive
 * logic, no reconnection, no history, and a "latest detections" view that is only ever
 * overwritten by a non-empty list and never expires.
 */
module LegacyStreamManager {
  import opened Wrappers
  import opened Detections
  import FrameQueue
  import opened Lifecycle
  import NM = NotificationManager
  import UI = StreamManager

  datatype State = State(life: Life, queue: seq<Encoded>, latestDetections: seq<Detection>)

  const Initial := State(Constructed, [], [])

  /** One pass of the frame loop: camera read, detector answer, encoding success. */
  datatype FrameInput = FrameInput(read: Option<Frame>, processed: Option<Processed>, encodeOk: bool)

  /** The detections a pass publishes, if it gets past the read and the detector. */
  function Published(input: FrameInput): Option<seq<Detection>>
  {
    if input.read.Some? && input.processed.Some? then Some(input.processed.value.detections) else None
  }

  /**
   * One pass of the legacy frame loop: a missing frame or detector answer skips it; a
   * non-empty detection list replaces the latest view; a successfully encoded frame is
   * enqueued drop-oldest.
   */
  function FrameStep(st: State, input: FrameInput): (r: State)
    ensures r.life == st.life
    ensures Published(input).None? ==> r == st
    ensures r.latestDetections ==
      (if Published(input).Some? && |Published(input).value| > 0 then Published(input).value else st.latestDetections)
    ensures Published(input).Some? && input.encodeOk ==>
      r.queue == FrameQueue.Put(st.queue, Encoded(input.processed.value.frame), FrameQueue.MaxSize)
    ensures !(Published(input).Some? && input.encodeOk) ==> r.queue == st.queue
    ensures |st.queue| <= FrameQueue.MaxSize ==> |r.queue| <= FrameQueue.MaxSize
  {
    if input.read.None? || input.processed.None? then st
    else
      var p := input.processed.value;
      var st1 := if |p.detections| > 0 then st.(latestDetections := p.detections) else st;
      if input.encodeOk then st1.(queue := FrameQueue.Put(st1.queue, Encoded(p.frame), FrameQueue.MaxSize))
      else st1
  }

  /** The state after the passes `inputs`, in order. */
  function Run(st: State, inputs: seq<FrameInput>): State
    decreases |inputs|
  {
    if |inputs| == 0 then st else FrameStep(Run(st, inputs[..|inputs| - 1]), inputs[|inputs| - 1])
  }

  /** The most recent non-empty published detection list, or `init` if there was none. */
  function LastNonEmpty(inputs: seq<FrameInput>, init: seq<Detection>): seq<Detection>
    decreases |inputs|
  {
    if |inputs| == 0 then init
    else
      var last := Published(inputs[|inputs| - 1]);
      if last.Some? && |last.value| > 0 then last.value else LastNonEmpty(inputs[..|inputs| - 1], init)
  }

  /** Without a staleness timeout, the latest view is always the most recent non-empty
      detection list, however long ago it was published. */
  lemma {:induction false} LatestIsLastNonEmpty(st: State, inputs: seq<FrameInput>)
    ensures Run(st, inputs).latestDetections == LastNonEmpty(inputs, st.latestDetections)
    decreases |inputs|
  {
    if |inputs| > 0 {
      LatestIsLastNonEmpty(st, inputs[..|inputs| - 1]);
    }
  }

  /** The queue stays within capacity over any run. */
  lemma {:induction false} RunKeepsQueueBounded(st: State, inputs: seq<FrameInput>)
    requires |st.queue| <= FrameQueue.MaxSize
    ensures |Run(st, inputs).queue| <= FrameQueue.MaxSize
    decreases |inputs|
  {
    if |inputs| > 0 {
      RunKeepsQueueBounded(st, inputs[..|inputs| - 1]);
    }
  }

  /** `start_stream` while active does nothing; when inactive it creates one task. */
  lemma StartIgnoredWhileActive(st: State)
    ensures st.life.active ==> StartStream(st.life) == st.life
    ensures !st.life.active ==> StartStream(st.life).tasksSpawned == st.life.tasksSpawned + 1
  {
  }

  /** The monitor stops the legacy stream exactly when its counter runs out. */
  lemma KeepAliveExpiry(st: State, k: nat)
    requires st.life.active && 1 <= k
    ensures k < st.life.keepAlive ==> Ticks(st.life, k).active
    ensures k >= st.life.keepAlive ==> !Ticks(st.life, k).active && Ticks(st.life, k).streamTask.None?
  {
    TicksUntilExpiry(st.life, k);
  }

  /** The two snapshots disagree on staleness: after a gun and then a frame without
      detections, the legacy view still shows the gun, while the UI backend's view, holding
      a gun last seen at t=1, has expired by a detection-free frame at t=4. */
  lemma StalenessDiffers(cfg: NM.Config)
    ensures
      var gun := [Detection("gun", 0.9, 0, 0, 1, 1)];
      var legacy := FrameStep(FrameStep(Initial, FrameInput(Some(Frame(0)), Some(Processed(Frame(0), gun)), true)),
                              FrameInput(Some(Frame(1)), Some(Processed(Frame(1), [])), true));
      var ui0 := UI.Initial.(lastDetectionTime := Some(1.0), latestDetections := gun);
      var ui := UI.FrameStep(cfg, ui0, UI.FrameInput(Some(Frame(1)), Some(Processed(Frame(1), [])), true, 4.0, "", NM.Failed));
      legacy.latestDetections == gun && ui.latestDetections == []
  {
  }
}

=== FILE: notification_manager.dfy ===
/**
 * The alert-debouncing engine (`NotificationManager`): a cooldown gate with three override
 * exceptions, a best-of-window frame selection and the state update after a dispatch.
 * Time is the explicit parameter `now`; the HTTP post is reduced to its outcome.
 */
module NotificationManager {
  import opened Wrappers
  import opened Detections

  /** The tunable parameters of the engine. */
  datatype Config = Config(
    cooldownPeriod: real,
    confidenceThreshold: real,
    confidenceIncreaseThreshold: real,
    bestImageWindow: real)

  /** The values the constructor installs: 5 minutes, 60 %, 10 points, 3 seconds. */
  const Defaults := Config(300.0, 0.60, 0.10, 3.0)

  /** The engine's fields. `lastCategory`, `lastCount`, `lastConfidence` and
      `lastNotificationTime` describe the last successful send and gate the cooldown. */
  datatype State = State(
    lastNotificationTime: real,
    bestImage: Option<Frame>,
    bestImageTime: real,
    bestDetections: seq<Detection>,
    capturing: bool,
    captureStartTime: real,
    lastCategory: Option<string>,
    lastCount: nat,
    lastConfidence: real)

  /** The state after construction: no send yet (time 0), nothing captured. */
  const Initial := State(0.0, None, 0.0, [], false, 0.0, None, 0, 0.0)

  /** What became of a POST: rejected or failed, or accepted (status 200) at time `at`. */
  datatype SendOutcome = Failed | Delivered(at: real)

  /** The new state and the boolean `process_detection` returns. */
  datatype Outcome = Outcome(state: State, sent: bool)

  /** The four fields written only by a successful send. */
  datatype LastSend = LastSend(time: real, category: Option<string>, count: nat, confidence: real)

  function LastSendOf(st: State): LastSend
  {
    LastSend(st.lastNotificationTime, st.lastCategory, st.lastCount, st.lastConfidence)
  }

  /** The last successful send is less than `cooldownPeriod` seconds old. */
  predicate InCooldown(cfg: Config, st: State, now: real)
  {
    now - st.lastNotificationTime < cfg.cooldownPeriod
  }

  /** The current set merely repeats the last sent alert: same category (as the caller's
      chosen member `pick` of the type set), same count, and a confidence that has not
      risen by `confidenceIncreaseThreshold`. */
  predicate RepeatsLastSend(cfg: Config, st: State, confidence: real, pick: string, weaponCount: nat)
  {
    && st.lastCategory == Some(pick)
    && st.lastCount == weaponCount
    && confidence - st.lastConfidence < cfg.confidenceIncreaseThreshold
  }

  /** `_should_start_capture`: outside the cooldown a confident set is admitted; inside it
      only a set that does not merely repeat the last send is admitted. */
  function ShouldStartCapture(cfg: Config, st: State, now: real, confidence: real, pick: string, weaponCount: nat): (r: bool)
    ensures !InCooldown(cfg, st, now) ==> (r <==> confidence >= cfg.confidenceThreshold)
    ensures InCooldown(cfg, st, now) ==> (r <==> !RepeatsLastSend(cfg, st, confidence, pick, weaponCount))
  {
    if now - st.lastNotificationTime < cfg.cooldownPeriod then
      if st.lastCategory != Some(pick) then true
      else if st.lastCount != weaponCount then true
      else if confidence - st.lastConfidence >= cfg.confidenceIncreaseThreshold then true
      else false
    else
      confidence >= cfg.confidenceThreshold
  }

  /** The confidence of the held best set, 0 when it is empty. */
  function BestConfidence(st: State): real
  {
    if |st.bestDetections| > 0 then MaxConfidence(st.bestDetections) else 0.0
  }

  /**
   * `_is_better_image`: with nothing held, anything is better; otherwise a set more confident
   * than every held detection wins, one less confident than some held detection loses, and
   * at equal top confidence the set wins only when its DISTINCT class count exceeds the
   * held set's RAW detection count.
   */
  function IsBetterImage(st: State, confidence: real, weaponCount: nat): (r: bool)
    ensures st.bestImage.None? ==> r
    ensures st.bestImage.Some? && |st.bestDetections| == 0 ==>
      (r <==> confidence > 0.0 || (confidence == 0.0 && weaponCount > 0))
    ensures (st.bestImage.Some? && |st.bestDetections| > 0 &&
             forall i :: 0 <= i < |st.bestDetections| ==> st.bestDetections[i].confidence < confidence) ==> r
    ensures st.bestImage.Some? && (exists i :: 0 <= i < |st.bestDetections| && st.bestDetections[i].confidence > confidence) ==> !r
    ensures st.bestImage.Some?
      && (exists i :: 0 <= i < |st.bestDetections| && st.bestDetections[i].confidence == confidence)
      && (forall i :: 0 <= i < |st.bestDetections| ==> st.bestDetections[i].confidence <= confidence)
      ==> (r <==> weaponCount > |st.bestDetections|)
  {
    if st.bestImage.None? then true
    else
      var bestConf := BestConfidence(st);
      if confidence > bestConf then true
      else if confidence == bestConf && weaponCount > |st.bestDetections| then true
      else false
  }

  /** One candidate set offered to the capture window: it replaces the held best image and
      detections exactly when `IsBetterImage` ranks it higher. */
  function Consider(st: State, frame: Frame, q: seq<Detection>, now: real): (r: State)
    requires |q| > 0
    ensures IsBetterImage(st, MaxConfidence(q), |ClassSet(q)|) ==>
      r.bestImage == Some(frame) && r.bestDetections == q && r.bestImageTime == now
    ensures !IsBetterImage(st, MaxConfidence(q), |ClassSet(q)|) ==> r == st
    ensures r.capturing == st.capturing && r.captureStartTime == st.captureStartTime
    ensures LastSendOf(r) == LastSendOf(st)
  {
    if IsBetterImage(st, MaxConfidence(q), |ClassSet(q)|)
    then st.(bestImage := Some(frame), bestImageTime := now, bestDetections := q)
    else st
  }

  /**
   * The state effect of `_send_notification`: without a held image nothing is attempted;
   * a failed post changes nothing; a delivered post records the best set as the last send
   * (category of its FIRST detection, raw detection count, top confidence) and clears it.
   */
  function SendNotification(st: State, outcome: SendOutcome): (r: (State, bool))
    ensures r.1 <==> st.bestImage.Some? && outcome.Delivered?
    ensures !r.1 ==> r.0 == st
    ensures r.1 ==> r.0.bestImage.None? && r.0.bestDetections == []
    ensures r.1 ==> r.0.lastNotificationTime == outcome.at && r.0.lastCount == |st.bestDetections|
    ensures r.1 && |st.bestDetections| > 0 ==>
      && r.0.lastCategory == Some(st.bestDetections[0].className)
      && (forall i :: 0 <= i < |st.bestDetections| ==> st.bestDetections[i].confidence <= r.0.lastConfidence)
      && (exists i :: 0 <= i < |st.bestDetections| && st.bestDetections[i].confidence == r.0.lastConfidence)
    ensures r.1 && |st.bestDetections| == 0 ==> r.0.lastCategory.None? && r.0.lastConfidence == 0.0
    ensures r.0.capturing == st.capturing && r.0.captureStartTime == st.captureStartTime
  {
    if st.bestImage.None? then (st, false)
    else
      match outcome
      case Failed => (st, false)
      case Delivered(at) =>
        var best := st.bestDetections;
        (st.(lastNotificationTime := at,
             lastCategory := if |best| > 0 then Some(best[0].className) else None,
             lastCount := |best|,
             lastConfidence := BestConfidence(st),
             bestImage := None,
             bestDetections := []),
         true)
  }

  /** `pick` is what `list(weapon_types)[0]` yields: some member of the qualifying class set. */
  predicate PickIsMember(cfg: Config, detections: seq<Detection>, pick: string)
  {
    var q := AboveThreshold(detections, cfg.confidenceThreshold);
    |q| > 0 ==> pick in ClassSet(q)
  }

  /**
   * `process_detection` for one detection list at time `now`. Below the threshold nothing
   * happens. When idle and admitted, a capture window opens on this frame and nothing is
   * sent. While capturing, the set competes for best; once the window has elapsed the
   * window closes, one send is attempted, and the call reports true whatever the outcome.
   */
  function ProcessDetection(cfg: Config, st: State, frame: Frame, detections: seq<Detection>,
                            now: real, pick: string, outcome: SendOutcome): (o: Outcome)
    requires PickIsMember(cfg, detections, pick)
    ensures |AboveThreshold(detections, cfg.confidenceThreshold)| == 0 ==> o == Outcome(st, false)
    ensures o.sent <==>
      && st.capturing
      && |AboveThreshold(detections, cfg.confidenceThreshold)| > 0
      && now - st.captureStartTime >= cfg.bestImageWindow
    ensures !st.capturing ==>
      (o.state.capturing <==>
        && |AboveThreshold(detections, cfg.confidenceThreshold)| > 0
        && ShouldStartCapture(cfg, st, now, MaxConfidence(AboveThreshold(detections, cfg.confidenceThreshold)), pick,
                              |ClassSet(AboveThreshold(detections, cfg.confidenceThreshold))|))
    ensures !st.capturing && !o.state.capturing ==> o == Outcome(st, false)
    ensures !st.capturing && o.state.capturing ==>
      && !o.sent
      && o.state.captureStartTime == now
      && o.state.bestImage == Some(frame)
      && o.state.bestDetections == AboveThreshold(detections, cfg.confidenceThreshold)
      && LastSendOf(o.state) == LastSendOf(st)
    ensures o.sent ==> !o.state.capturing
    ensures !(o.sent && outcome.Delivered?) ==> LastSendOf(o.state) == LastSendOf(st)
    ensures st.capturing && !o.sent && |AboveThreshold(detections, cfg.confidenceThreshold)| > 0 ==>
      o == Outcome(Consider(st, frame, AboveThreshold(detections, cfg.confidenceThreshold), now), false)
    ensures o.sent ==>
      o.state == SendNotification(Consider(st, frame, AboveThreshold(detections, cfg.confidenceThreshold), now)
                                    .(capturing := false), outcome).0
  {
    var q := AboveThreshold(detections, cfg.confidenceThreshold);
    if |q| == 0 then Outcome(st, false)
    else
      var confidence := MaxConfidence(q);
      var weaponCount := |ClassSet(q)|;
      if !st.capturing && ShouldStartCapture(cfg, st, now, confidence, pick, weaponCount) then
        Outcome(st.(capturing := true, captureStartTime := now, bestImage := Some(frame),
                    bestImageTime := now, bestDetections := q), false)
      else if st.capturing then
        var st1 := Consider(st, frame, q, now);
        if now - st.captureStartTime >= cfg.bestImageWindow then
          Outcome(SendNotification(st1.(capturing := false), outcome).0, true)
        else
          Outcome(st1, false)
      else
        Outcome(st, false)
  }
}

=== FILE: notification_properties.dfy ===
/** Properties of the alert engine that relate several calls or hold over whole runs. */
module NotificationProperties {
  import opened Wrappers
  import opened Detections
  import opened NotificationManager

  /** While a capture window is open a best image is held, and its detections are a
      non-empty list of qualifying detections. */
  ghost predicate Valid(cfg: Config, st: State)
  {
    st.capturing ==>
      && st.bestImage.Some?
      && |st.bestDetections| > 0
      && forall i :: 0 <= i < |st.bestDetections| ==> st.bestDetections[i].confidence >= cfg.confidenceThreshold
  }

  lemma InitialIsValid(cfg: Config)
    ensures Valid(cfg, Initial)
  {
  }

  /** Every call keeps the capture window consistent with the held best set. */
  lemma ProcessDetectionKeepsValid(cfg: Config, st: State, frame: Frame, detections: seq<Detection>,
                                   now: real, pick: string, outcome: SendOutcome)
    requires Valid(cfg, st) && PickIsMember(cfg, detections, pick)
    ensures Valid(cfg, ProcessDetection(cfg, st, frame, detections, now, pick, outcome).state)
  {
    var q := AboveThreshold(detections, cfg.confidenceThreshold);
    var o := ProcessDetection(cfg, st, frame, detections, now, pick, outcome);
    if |q| == 0 {
      assert o.state == st;
    } else if o.sent {
      assert !o.state.capturing;
    } else if st.capturing {
      assert o.state == Consider(st, frame, q, now);
    } else if o.state.capturing {
      assert o.state.bestImage.Some? && o.state.bestDetections == q;
    }
  }

  /** Outside the cooldown an idle engine opens a window on every set that has a
      qualifying detection, because the gate's own threshold test repeats the filter. */
  lemma OutsideCooldownAlwaysOpens(cfg: Config, st: State, frame: Frame, detections: seq<Detection>,
                                   now: real, pick: string, outcome: SendOutcome)
    requires PickIsMember(cfg, detections, pick)
    requires !st.capturing && !InCooldown(cfg, st, now)
    requires exists i :: 0 <= i < |detections| && detections[i].confidence >= cfg.confidenceThreshold
    ensures var o := ProcessDetection(cfg, st, frame, detections, now, pick, outcome);
      && o.state.capturing && !o.sent && o.state.captureStartTime == now
      && o.state.bestImage == Some(frame)
      && o.state.bestDetections == AboveThreshold(detections, cfg.confidenceThreshold)
  {
    var q := AboveThreshold(detections, cfg.confidenceThreshold);
    var i :| 0 <= i < |detections| && detections[i].confidence >= cfg.confidenceThreshold;
    assert detections[i] in q;
    var k :| 0 <= k < |q| && q[k].confidence == MaxConfidence(q);
  }

  /** A call that dispatched leaves the engine idle, so the next call cannot dispatch:
      one window yields at most one send attempt. */
  lemma NoBackToBackDispatch(cfg: Config, st: State, f1: Frame, d1: seq<Detection>, t1: real, p1: string, s1: SendOutcome,
                             f2: Frame, d2: seq<Detection>, t2: real, p2: string, s2: SendOutcome)
    requires PickIsMember(cfg, d1, p1) && PickIsMember(cfg, d2, p2)
    requires ProcessDetection(cfg, st, f1, d1, t1, p1, s1).sent
    ensures !ProcessDetection(cfg, ProcessDetection(cfg, st, f1, d1, t1, p1, s1).state, f2, d2, t2, p2, s2).sent
  {
  }

  /** A failed dispatch closes the window yet keeps the stale best image: the engine is
      idle while still holding a best frame, and the cooldown is governed by the previous
      successful send. */
  lemma FailedDispatchKeepsStaleBest(cfg: Config, st: State, frame: Frame, detections: seq<Detection>,
                                     now: real, pick: string)
    requires Valid(cfg, st) && PickIsMember(cfg, detections, pick)
    requires ProcessDetection(cfg, st, frame, detections, now, pick, Failed).sent
    ensures var o := ProcessDetection(cfg, st, frame, detections, now, pick, Failed);
      && !o.state.capturing
      && o.state.bestImage.Some?
      && |o.state.bestDetections| > 0
      && LastSendOf(o.state) == LastSendOf(st)
  {
  }

  /** Offering the held best set again never replaces it: its distinct class count never
      exceeds its own detection count. */
  lemma HeldBestNeverDisplacedByItself(st: State)
    requires st.bestImage.Some? && |st.bestDetections| > 0
    ensures !IsBetterImage(st, MaxConfidence(st.bestDetections), |ClassSet(st.bestDetections)|)
  {
    ClassCountAtMostLength(st.bestDetections);
  }

  /** The tie-break compares a distinct class count with a raw detection count: a held
      pair of guns at 0.8 is not displaced by a gun and a knife at the same top confidence,
      although the newcomer has more categories. */
  lemma TieBreakUsesRawCount()
    ensures
      var held := [Detection("gun", 0.8, 0, 0, 1, 1), Detection("gun", 0.8, 2, 2, 3, 3)];
      var newcomer := [Detection("gun", 0.8, 0, 0, 1, 1), Detection("knife", 0.7, 2, 2, 3, 3)];
      var st := Initial.(bestImage := Some(Frame(1)), bestDetections := held, capturing := true);
      && |ClassSet(newcomer)| > |ClassSet(held)|
      && MaxConfidence(newcomer) == MaxConfidence(held)
      && !IsBetterImage(st, MaxConfidence(newcomer), |ClassSet(newcomer)|)
  {
    var held := [Detection("gun", 0.8, 0, 0, 1, 1), Detection("gun", 0.8, 2, 2, 3, 3)];
    var newcomer := [Detection("gun", 0.8, 0, 0, 1, 1), Detection("knife", 0.7, 2, 2, 3, 3)];
    var st := Initial.(bestImage := Some(Frame(1)), bestDetections := held, capturing := true);
    TwoGunsAndAKnife(held, newcomer);
    assert BestConfidence(st) == 0.8;
  }

  lemma TwoGunsAndAKnife(held: seq<Detection>, newcomer: seq<Detection>)
    requires held == [Detection("gun", 0.8, 0, 0, 1, 1), Detection("gun", 0.8, 2, 2, 3, 3)]
    requires newcomer == [Detection("gun", 0.8, 0, 0, 1, 1), Detection("knife", 0.7, 2, 2, 3, 3)]
    ensures ClassSet(held) == {"gun"} && |ClassSet(newcomer)| == 2
    ensures MaxConfidence(held) == 0.8 && MaxConfidence(newcomer) == 0.8
  {
    assert ClassSet(newcomer) == {"gun", "knife"};
  }

  /** The count recorded after a send is the raw detection count, while the gate compares
      it with a distinct class count: after sending two guns, a single gun at the same
      confidence re-opens a window inside the cooldown. */
  lemma RawCountReopensDuringCooldown(cfg: Config, st: State, now: real)
    requires InCooldown(cfg, st, now)
    requires st.lastCategory == Some("gun") && st.lastCount == 2
    ensures ShouldStartCapture(cfg, st, now, st.lastConfidence, "gun", |ClassSet([Detection("gun", st.lastConfidence, 0, 0, 1, 1)])|)
  {
    assert ClassSet([Detection("gun", st.lastConfidence, 0, 0, 1, 1)]) == {"gun"};
  }

  /** One call of the engine, with the inputs the environment supplies. */
  datatype Event = Event(frame: Frame, detections: seq<Detection>, now: real, pick: string, outcome: SendOutcome)

  ghost predicate PicksAreMembers(cfg: Config, evs: seq<Event>)
  {
    forall i :: 0 <= i < |evs| ==> PickIsMember(cfg, evs[i].detections, evs[i].pick)
  }

  function Step(cfg: Config, st: State, e: Event): Outcome
    requires PickIsMember(cfg, e.detections, e.pick)
  {
    ProcessDetection(cfg, st, e.frame, e.detections, e.now, e.pick, e.outcome)
  }

  /** The engine state after processing `evs` in order. */
  function Run(cfg: Config, st: State, evs: seq<Event>): State
    requires PicksAreMembers(cfg, evs)
    decreases |evs|
  {
    if |evs| == 0 then st else Run(cfg, Step(cfg, st, evs[0]).state, evs[1..])
  }

  /** How many calls of the run reported a dispatch. */
  function Dispatches(cfg: Config, st: State, evs: seq<Event>): nat
    requires PicksAreMembers(cfg, evs)
    decreases |evs|
  {
    if |evs| == 0 then 0
    else
      var o := Step(cfg, st, evs[0]);
      (if o.sent then 1 else 0) + Dispatches(cfg, o.state, evs[1..])
  }

  /** How many calls of the run opened a capture window. */
  function Opens(cfg: Config, st: State, evs: seq<Event>): nat
    requires PicksAreMembers(cfg, evs)
    decreases |evs|
  {
    if |evs| == 0 then 0
    else
      var o := Step(cfg, st, evs[0]);
      (if !st.capturing && o.state.capturing then 1 else 0) + Opens(cfg, o.state, evs[1..])
  }

  function Open(st: State): nat
  {
    if st.capturing then 1 else 0
  }

  /** Every dispatch closes exactly one window that some earlier call (or the starting
      state) opened: dispatches plus windows still open equals windows opened plus the
      window open at the start. */
  lemma {:induction false} EpisodeBalance(cfg: Config, st: State, evs: seq<Event>)
    requires PicksAreMembers(cfg, evs)
    ensures Dispatches(cfg, st, evs) + Open(Run(cfg, st, evs)) == Opens(cfg, st, evs) + Open(st)
    decreases |evs|
  {
    if |evs| > 0 {
      assert PicksAreMembers(cfg, evs[1..]);
      var o := Step(cfg, st, evs[0]);
      EpisodeBalance(cfg, o.state, evs[1..]);
    }
  }

  /** The capture-window invariant holds after any run from a valid state. */
  lemma {:induction false} RunKeepsValid(cfg: Config, st: State, evs: seq<Event>)
    requires PicksAreMembers(cfg, evs) && Valid(cfg, st)
    ensures Valid(cfg, Run(cfg, st, evs))
    decreases |evs|
  {
    if |evs| > 0 {
      assert PicksAreMembers(cfg, evs[1..]);
      var e := evs[0];
      ProcessDetectionKeepsValid(cfg, st, e.frame, e.detections, e.now, e.pick, e.outcome);
      RunKeepsValid(cfg, Step(cfg, st, e).state, evs[1..]);
    }
  }

  /** The worked example: gun 0.75 at t=0 opens a window, gun 0.82 at t=1 becomes best,
      gun 0.70 at t=3 closes the window and the t=1 frame is delivered; gun 0.85 at t=100
      is then refused by the cooldown (same category, same count, rise 0.03 < 0.10). */
  lemma WorkedExample()
    ensures
      var cfg := Defaults;
      var o0 := ProcessDetection(cfg, Initial, Frame(0), [Detection("gun", 0.75, 0, 0, 1, 1)], 0.0, "gun", Failed);
      var o1 := ProcessDetection(cfg, o0.state, Frame(1), [Detection("gun", 0.82, 0, 0, 1, 1)], 1.0, "gun", Failed);
      var o3 := ProcessDetection(cfg, o1.state, Frame(3), [Detection("gun", 0.70, 0, 0, 1, 1)], 3.0, "gun", Delivered(3.0));
      var o100 := ProcessDetection(cfg, o3.state, Frame(100), [Detection("gun", 0.85, 0, 0, 1, 1)], 100.0, "gun", Failed);
      && o0.state.capturing && !o0.sent
      && o1.state.bestImage == Some(Frame(1)) && !o1.sent
      && o3.sent
      && LastSendOf(o3.state) == LastSend(3.0, Some("gun"), 1, 0.82)
      && !o100.sent && o100.state == o3.state
  {
    ExampleOpens();
    ExampleImproves();
    ExampleSends();
    ExampleRepeatSuppressed();
  }

  /** The states the worked example passes through. */
  const ExampleOpened := State(0.0, Some(Frame(0)), 0.0, [Detection("gun", 0.75, 0, 0, 1, 1)], true, 0.0, None, 0, 0.0)
  const ExampleImproved := ExampleOpened.(bestImage := Some(Frame(1)), bestImageTime := 1.0,
                                          bestDetections := [Detection("gun", 0.82, 0, 0, 1, 1)])
  const ExampleSent := State(3.0, None, 1.0, [], false, 0.0, Some("gun"), 1, 0.82)

  /** At time 0 the first gun opens a window (no category sent yet, so the cooldown admits it). */
  lemma ExampleOpens()
    ensures ProcessDetection(Defaults, Initial, Frame(0), [Detection("gun", 0.75, 0, 0, 1, 1)], 0.0, "gun", Failed)
      == Outcome(ExampleOpened, false)
  {
    var d := Detection("gun", 0.75, 0, 0, 1, 1);
    SingletonAbove(d, Defaults.confidenceThreshold);
    assert ClassSet([d]) == {"gun"};
  }

  /** At time 1 a more confident gun replaces the held image; the window is still open. */
  lemma ExampleImproves()
    ensures ProcessDetection(Defaults, ExampleOpened, Frame(1), [Detection("gun", 0.82, 0, 0, 1, 1)], 1.0, "gun", Failed)
      == Outcome(ExampleImproved, false)
  {
    var d := Detection("gun", 0.82, 0, 0, 1, 1);
    SingletonAbove(d, Defaults.confidenceThreshold);
    assert ClassSet([d]) == {"gun"};
  }

  /** At time 3 the window has elapsed: the held 0.82 image is sent, not the new 0.70 one. */
  lemma ExampleSends()
    ensures ProcessDetection(Defaults, ExampleImproved, Frame(3), [Detection("gun", 0.70, 0, 0, 1, 1)], 3.0, "gun", Delivered(3.0))
      == Outcome(ExampleSent, true)
  {
    var d := Detection("gun", 0.70, 0, 0, 1, 1);
    SingletonAbove(d, Defaults.confidenceThreshold);
    assert ClassSet([d]) == {"gun"};
  }

  /** At time 100, inside the cooldown, one gun at 0.85 merely repeats the last send. */
  lemma ExampleRepeatSuppressed()
    ensures ProcessDetection(Defaults, ExampleSent, Frame(100), [Detection("gun", 0.85, 0, 0, 1, 1)], 100.0, "gun", Failed)
      == Outcome(ExampleSent, false)
  {
    var d := Detection("gun", 0.85, 0, 0, 1, 1);
    SingletonAbove(d, Defaults.confidenceThreshold);
    assert ClassSet([d]) == {"gun"};
  }

  /** A single qualifying detection passes the filter unchanged. */
  lemma SingletonAbove(d: Detection, threshold: real)
    requires d.confidence >= threshold
    ensures AboveThreshold([d], threshold) == [d]
  {
    assert [d][1..] == [];
  }
}

=== FILE: seqs.dfy ===
/** Order-preserving selection over sequences: Python's `[x for x in s if p(x)]`. */
module Seqs {

  /** The elements of `s` that satisfy `p`, in the order they occur in `s`. */
  function Filter<T>(s: seq<T>, p: T -> bool): (r: seq<T>)
    ensures |r| <= |s|
    ensures forall i :: 0 <= i < |r| ==> r[i] in s && p(r[i])
    ensures forall i :: 0 <= i < |s| && p(s[i]) ==> s[i] in r
    decreases |s|
  {
    if |s| == 0 then []
    else if p(s[0]) then [s[0]] + Filter(s[1..], p)
    else Filter(s[1..], p)
  }

  /** `r` is obtained from `s` by deleting elements, without reordering the rest. */
  ghost predicate IsSubsequence<T>(r: seq<T>, s: seq<T>)
    decreases |s|
  {
    if |r| == 0 then true
    else if |s| == 0 then false
    else if r[0] == s[0] then IsSubsequence(r[1..], s[1..])
    else IsSubsequence(r, s[1..])
  }

  /** Filtering never reorders: the survivors keep their relative order. */
  lemma {:induction false} FilterIsSubsequence<T>(s: seq<T>, p: T -> bool)
    ensures IsSubsequence(Filter(s, p), s)
    decreases |s|
  {
    if |s| > 0 {
      FilterIsSubsequence(s[1..], p);
      if p(s[0]) {
        assert Filter(s, p)[1..] == Filter(s[1..], p);
      }
    }
  }

  /** Filtering keeps every occurrence of a selected element and none of the others. */
  lemma {:induction false} FilterCounts<T>(s: seq<T>, p: T -> bool)
    ensures forall x :: multiset(Filter(s, p))[x] == if p(x) then multiset(s)[x] else 0
    decreases |s|
  {
    if |s| > 0 {
      FilterCounts(s[1..], p);
      assert s == [s[0]] + s[1..];
      assert multiset(s) == multiset{s[0]} + multiset(s[1..]);
    }
  }

  /** Filtering distributes over concatenation. */
  lemma {:induction false} FilterAppend<T>(a: seq<T>, b: seq<T>, p: T -> bool)
    ensures Filter(a + b, p) == Filter(a, p) + Filter(b, p)
    decreases |a|
  {
    if |a| > 0 {
      assert (a + b)[1..] == a[1..] + b;
      FilterAppend(a[1..], b, p);
    } else {
      assert a + b == b;
    }
  }

  /** The keys of `s`, read through `key`, strictly increase from front to back. */
  ghost predicate Ascending<T>(s: seq<T>, key: T -> real)
  {
    forall i, j :: 0 <= i < j < |s| ==> key(s[i]) < key(s[j])
  }

  /** A filtered strictly ascending sequence is still strictly ascending. */
  lemma {:induction false} FilterKeepsAscending<T>(s: seq<T>, p: T -> bool, key: T -> real)
    ensures Ascending(s, key) ==> Ascending(Filter(s, p), key)
    decreases |s|
  {
    if |s| > 0 && Ascending(s, key) {
      assert Ascending(s[1..], key);
      FilterKeepsAscending(s[1..], p, key);
      if p(s[0]) {
        var rest := Filter(s[1..], p);
        var r := Filter(s, p);
        assert r == [s[0]] + rest;
        forall j | 0 < j < |r|
          ensures key(r[0]) < key(r[j])
        {
          assert r[j] == rest[j - 1];
          assert rest[j - 1] in s[1..];
        }
      }
    }
  }
}

=== FILE: stream_lifecycle.dfy ===
/**
 * The start/stop lifecycle both stream managers share: `start_stream`, the keep-alive
 * countdown of `monitor_activity`, and the external keep-alive reset.
 */
module Lifecycle {
  import opened Wrappers

  /** `active`, `keep_alive_counter`, `stream_task`; `tasksSpawned` numbers the pipeline
      tasks created so far, so a task's identity is the count at its creation. */
  datatype Life = Life(active: bool, keepAlive: int, streamTask: Option<nat>, tasksSpawned: nat)

  /** A freshly constructed manager: inactive, counter 0, no task. */
  const Constructed := Life(false, 0, None, 0)

  /** Counter value the `/keep-alive` endpoint installs. */
  const KeepAliveRequest: int := 100

  /** Counter value installed at server start-up. */
  const StartupKeepAlive: int := 1000000

  /** `start_stream`: an inactive manager becomes active with a new pipeline task (and its
      monitor); an active one is left exactly as it is. The counter is not reset. */
  function StartStream(l: Life): (r: Life)
    ensures l.active ==> r == l
    ensures !l.active ==>
      && r.active
      && r.streamTask == Some(l.tasksSpawned)
      && r.tasksSpawned == l.tasksSpawned + 1
      && r.keepAlive == l.keepAlive
    ensures r.active
  {
    if !l.active then l.(active := true, streamTask := Some(l.tasksSpawned), tasksSpawned := l.tasksSpawned + 1)
    else l
  }

  /** One pass of the `monitor_activity` loop body after its one-second sleep: the counter
      drops by one, and once it is not positive the stream is stopped and its task dropped. */
  function MonitorTick(l: Life): (r: Life)
    ensures r.keepAlive == l.keepAlive - 1
    ensures r.keepAlive <= 0 ==> !r.active && r.streamTask.None?
    ensures r.keepAlive > 0 ==> r.active == l.active && r.streamTask == l.streamTask
    ensures r.tasksSpawned == l.tasksSpawned
  {
    var l1 := l.(keepAlive := l.keepAlive - 1);
    if l1.keepAlive <= 0 then l1.(active := false, streamTask := None) else l1
  }

  /** A client's keep-alive request: only the counter changes. */
  function ResetKeepAlive(l: Life, value: int): (r: Life)
    ensures r.keepAlive == value && r.active == l.active && r.streamTask == l.streamTask
    ensures r.(keepAlive := l.keepAlive) == l
  {
    l.(keepAlive := value)
  }

  /** `k` monitor ticks with no keep-alive request in between. */
  function Ticks(l: Life, k: nat): Life
    decreases k
  {
    if k == 0 then l else Ticks(MonitorTick(l), k - 1)
  }

  /** Starting twice is starting once. */
  lemma StartStreamIdempotent(l: Life)
    ensures StartStream(StartStream(l)) == StartStream(l)
  {
  }

  /** An active stream with counter `c` survives exactly `c - 1` ticks: after fewer ticks it
      is still active with the counter lowered by the number of ticks, and the tick that
      brings the counter to zero stops it. A counter of zero or less stops it at the first. */
  lemma {:induction false} TicksUntilExpiry(l: Life, k: nat)
    requires l.active
    ensures k < l.keepAlive ==> Ticks(l, k) == l.(keepAlive := l.keepAlive - k)
    ensures k >= 1 && k >= l.keepAlive ==> !Ticks(l, k).active && Ticks(l, k).streamTask.None?
    decreases k
  {
    if k > 0 {
      var l1 := MonitorTick(l);
      if l1.keepAlive > 0 {
        TicksUntilExpiry(l1, k - 1);
      } else {
        StaysStopped(l1, k - 1);
      }
    }
  }

  /** Once stopped by the monitor, further ticks keep the stream stopped. The monitor task
      itself ends with the tick that stops the stream, so these later ticks are ones the
      program never performs; the lemma says that counting them would change nothing, which
      is what lets `Ticks` run past the expiry. */
  lemma {:induction false} StaysStopped(l: Life, k: nat)
    requires !l.active && l.streamTask.None? && l.keepAlive <= 0
    ensures !Ticks(l, k).active && Ticks(l, k).streamTask.None?
    decreases k
  {
    if k > 0 {
      StaysStopped(MonitorTick(l), k - 1);
    }
  }

  /** A keep-alive request buys an active stream 99 more ticks; the hundredth stops it. */
  lemma KeepAliveRequestLasts(l: Life)
    requires l.active
    ensures Ticks(ResetKeepAlive(l, KeepAliveRequest), 99).active
    ensures !Ticks(ResetKeepAlive(l, KeepAliveRequest), 100).active
  {
    TicksUntilExpiry(ResetKeepAlive(l, KeepAliveRequest), 99);
    TicksUntilExpiry(ResetKeepAlive(l, KeepAliveRequest), 100);
  }

  /** The counter set at server start-up keeps the stream running for 999999 ticks. */
  lemma StartupKeepsStreamRunning(l: Life)
    ensures Ticks(ResetKeepAlive(StartStream(l), StartupKeepAlive), StartupKeepAlive - 1).active
  {
    TicksUntilExpiry(ResetKeepAlive(StartStream(l), StartupKeepAlive), StartupKeepAlive - 1);
  }
}

=== FILE: stream_manager.dfy ===
/**
 * The per-frame bookkeeping of the `StreamManager` in the UI backend: reconnect counting,
 * the "latest detections" staleness timeout, the time-evicted detection history and the
 * drop-oldest frame queue, with the alert engine fed from the same step.
 * Camera, detector and encoder are inputs of the step; time is the parameter `now`.
 */
module StreamManager {
  import opened Wrappers
  import opened Detections
  import opened Seqs
  import FrameQueue
  import opened Lifecycle
  import NM = NotificationManager
  import NP = NotificationProperties

  /** Seconds without detections after which the latest detections are considered gone. */
  const DetectionTimeout: real := 2.0

  /** Seconds a history entry is retained. */
  const HistoryTimeout: real := 3600.0

  /** Consecutive failed connection attempts tolerated before the stream stops. */
  const MaxReconnectAttempts: nat := 5

  /** One detection episode: when it started, how many detections, which ones. */
  datatype HistoryEntry = HistoryEntry(time: real, count: nat, detections: seq<Detection>)

  function EntryTime(e: HistoryEntry): real
  {
    e.time
  }

  datatype State = State(
    life: Life,
    queue: seq<Encoded>,
    latestDetections: seq<Detection>,
    lastDetectionTime: Option<real>,
    history: seq<HistoryEntry>,
    reconnectAttempts: nat,
    latestFrame: Option<Frame>,
    latestFrameDetections: seq<Detection>,
    notifier: NM.State)

  /** The manager as constructed. */
  const Initial := State(Constructed, [], [], None, [], 0, None, [], NM.Initial)

  /** What the environment delivers during one pass of the frame loop: the camera read,
      the detector's answer, whether JPEG encoding succeeded, the clock, and the inputs
      the alert engine needs (its choice of set member and the POST outcome). */
  datatype FrameInput = FrameInput(
    read: Option<Frame>,
    processed: Option<Processed>,
    encodeOk: bool,
    now: real,
    pick: string,
    send: NM.SendOutcome)

  /** The per-manager invariant: history in ascending time order, queue within capacity,
      reconnect counter within its bound, latest detections present exactly while a
      last-detection time is recorded, alert engine consistent. */
  ghost predicate Valid(cfg: NM.Config, st: State)
  {
    && Ascending(st.history, EntryTime)
    && |st.queue| <= FrameQueue.MaxSize
    && st.reconnectAttempts <= MaxReconnectAttempts
    && (st.latestDetections == [] <==> st.lastDetectionTime.None?)
    && NP.Valid(cfg, st.notifier)
  }

  /** Python truthiness of `last_detection_time`: `None` and `0.0` are false. */
  predicate IsSet(t: Option<real>)
  {
    t.Some? && t.value != 0.0
  }

  /** A new history entry is opened for the first detection, or when the previous entry
      started more than `DetectionTimeout` seconds ago. */
  function AppendHistory(h: seq<HistoryEntry>, detections: seq<Detection>, now: real): (r: seq<HistoryEntry>)
    ensures (|h| == 0 || now - h[|h| - 1].time > DetectionTimeout) ==>
      r == h + [HistoryEntry(now, |detections|, detections)]
    ensures !(|h| == 0 || now - h[|h| - 1].time > DetectionTimeout) ==> r == h
    ensures Ascending(h, EntryTime) ==> Ascending(r, EntryTime)
  {
    if |h| == 0 || now - h[|h| - 1].time > DetectionTimeout then
      h + [HistoryEntry(now, |detections|, detections)]
    else h
  }

  /** History eviction: keep exactly the entries at most `HistoryTimeout` seconds old,
      in their original order. */
  function EvictHistory(h: seq<HistoryEntry>, now: real): (r: seq<HistoryEntry>)
    ensures forall i :: 0 <= i < |r| ==> now - r[i].time <= HistoryTimeout && r[i] in h
    ensures forall i :: 0 <= i < |h| && now - h[i].time <= HistoryTimeout ==> h[i] in r
    ensures IsSubsequence(r, h)
    ensures Ascending(h, EntryTime) ==> Ascending(r, EntryTime)
  {
    var recent := (e: HistoryEntry) => now - e.time <= HistoryTimeout;
    FilterIsSubsequence(h, recent);
    FilterKeepsAscending(h, recent, EntryTime);
    Filter(h, recent)
  }

  /** An empty detection list clears the latest detections only once the last detection is
      more than `DetectionTimeout` seconds old; otherwise nothing changes. */
  function ExpireLatest(st: State, now: real): (r: State)
    ensures IsSet(st.lastDetectionTime) && now - st.lastDetectionTime.value > DetectionTimeout ==>
      r == st.(latestDetections := [], lastDetectionTime := None)
    ensures !(IsSet(st.lastDetectionTime) && now - st.lastDetectionTime.value > DetectionTimeout) ==> r == st
  {
    if IsSet(st.lastDetectionTime) && now - st.lastDetectionTime.value > DetectionTimeout then
      st.(latestDetections := [], lastDetectionTime := None)
    else st
  }

  /** `pick` is a legitimate choice for the detections this input hands to the alert engine. */
  predicate PickOk(cfg: NM.Config, input: FrameInput)
  {
    input.processed.Some? ==> NM.PickIsMember(cfg, input.processed.value.detections, input.pick)
  }

  /**
   * One pass of the inner frame loop of `process_stream`. A missing frame or a failed
   * detection skips the pass with no effect. Otherwise the processed pair is published,
   * non-empty detections refresh the latest view, may open a history entry and go to the
   * alert engine, empty ones may expire the latest view, the history is evicted, and the
   * encoded frame is enqueued drop-oldest when encoding succeeded.
   */
  function FrameStep(cfg: NM.Config, st: State, input: FrameInput): (r: State)
    requires PickOk(cfg, input)
    ensures input.read.None? || input.processed.None? ==> r == st
    ensures r.life == st.life && r.reconnectAttempts == st.reconnectAttempts
    ensures input.read.Some? && input.processed.Some? ==>
      var p := input.processed.value;
      && r.latestFrame == Some(p.frame) && r.latestFrameDetections == p.detections
      && (forall i :: 0 <= i < |r.history| ==> input.now - r.history[i].time <= HistoryTimeout)
      && (|p.detections| > 0 ==> r.latestDetections == p.detections && r.lastDetectionTime == Some(input.now))
      && (|p.detections| > 0 ==>
            r.notifier == NM.ProcessDetection(cfg, st.notifier, p.frame, p.detections, input.now, input.pick, input.send).state
            && r.history == EvictHistory(AppendHistory(st.history, p.detections, input.now), input.now))
      && (|p.detections| == 0 ==> r.notifier == st.notifier && r.history == EvictHistory(st.history, input.now))
      && (|p.detections| == 0 && !(IsSet(st.lastDetectionTime) && input.now - st.lastDetectionTime.value > DetectionTimeout) ==>
            r.latestDetections == st.latestDetections && r.lastDetectionTime == st.lastDetectionTime)
      && (|p.detections| == 0 && IsSet(st.lastDetectionTime) && input.now - st.lastDetectionTime.value > DetectionTimeout ==>
            r.latestDetections == [] && r.lastDetectionTime.None?)
      && r.queue == (if input.encodeOk then FrameQueue.Put(st.queue, Encoded(p.frame), FrameQueue.MaxSize) else st.queue)
  {
    if input.read.None? || input.processed.None? then st
    else
      var p := input.processed.value;
      var now := input.now;
      var st1 := st.(latestFrame := Some(p.frame), latestFrameDetections := p.detections);
      var st2 :=
        if |p.detections| > 0 then
          var o := NM.ProcessDetection(cfg, st1.notifier, p.frame, p.detections, now, input.pick, input.send);
          st1.(latestDetections := p.detections,
               lastDetectionTime := Some(now),
               history := AppendHistory(st1.history, p.detections, now),
               notifier := o.state)
        else ExpireLatest(st1, now);
      var st3 := st2.(history := EvictHistory(st2.history, now));
      if input.encodeOk then st3.(queue := FrameQueue.Put(st3.queue, Encoded(p.frame), FrameQueue.MaxSize))
      else st3
  }

  /** A pass that gets past the camera read and the detector. */
  predicate Processed(input: FrameInput)
  {
    input.read.Some? && input.processed.Some?
  }

  /** A processed pass with at least one detection. */
  predicate Detected(input: FrameInput)
  {
    Processed(input) && |input.processed.value.detections| > 0
  }

  predicate PicksOk(cfg: NM.Config, inputs: seq<FrameInput>)
  {
    forall k :: 0 <= k < |inputs| ==> PickOk(cfg, inputs[k])
  }

  /** The manager after the first `n` passes of `inputs`. */
  function Passes(cfg: NM.Config, st: State, inputs: seq<FrameInput>, n: nat): State
    requires n <= |inputs| && PicksOk(cfg, inputs)
    decreases n
  {
    if n == 0 then st else FrameStep(cfg, Passes(cfg, st, inputs, n - 1), inputs[n - 1])
  }

  /** The part of the manager the staleness timeout works on. */
  datatype View = View(detections: seq<Detection>, time: Option<real>)

  function ViewOf(st: State): View
  {
    View(st.latestDetections, st.lastDetectionTime)
  }

  /** The latest view after one pass, on its own: unprocessed passes leave it, detections
      replace it, and an empty processed pass clears it once a truthy time is too old. */
  function ViewStep(v: View, input: FrameInput): View
  {
    if !Processed(input) then v
    else if Detected(input) then View(input.processed.value.detections, Some(input.now))
    else if IsSet(v.time) && input.now - v.time.value > DetectionTimeout then View([], None)
    else v
  }

  /** The latest view after the first `n` passes of `inputs`. */
  function ViewRun(v: View, inputs: seq<FrameInput>, n: nat): View
    requires n <= |inputs|
    decreases n
  {
    if n == 0 then v else ViewStep(ViewRun(v, inputs, n - 1), inputs[n - 1])
  }

  /** A pass of the frame loop moves the latest view exactly as `ViewStep` does. */
  lemma FrameStepView(cfg: NM.Config, st: State, input: FrameInput)
    requires PickOk(cfg, input)
    ensures ViewOf(FrameStep(cfg, st, input)) == ViewStep(ViewOf(st), input)
  {
  }

  /** Over any run the manager's latest view is the one `ViewRun` computes. */
  lemma {:induction false} PassesView(cfg: NM.Config, st: State, inputs: seq<FrameInput>, n: nat)
    requires n <= |inputs| && PicksOk(cfg, inputs)
    ensures ViewOf(Passes(cfg, st, inputs, n)) == ViewRun(ViewOf(st), inputs, n)
    decreases n
  {
    if n > 0 {
      PassesView(cfg, st, inputs, n - 1);
      FrameStepView(cfg, Passes(cfg, st, inputs, n - 1), inputs[n - 1]);
    }
  }

  /** Some processed pass among `inputs[m..n]` came more than `DetectionTimeout` after `t`. */
  predicate QuietTooLong(inputs: seq<FrameInput>, m: nat, n: nat, t: real)
    requires m <= n <= |inputs|
  {
    exists k :: m <= k < n && Processed(inputs[k]) && inputs[k].now - t > DetectionTimeout
  }

  lemma QuietTooLongExtend(inputs: seq<FrameInput>, m: nat, n: nat, t: real)
    requires m < n <= |inputs|
    ensures QuietTooLong(inputs, m, n, t) <==>
      QuietTooLong(inputs, m, n - 1, t) || (Processed(inputs[n - 1]) && inputs[n - 1].now - t > DetectionTimeout)
  {
  }

  /** Across passes without detections the latest view either stays as it was or is cleared,
      and it is cleared exactly when its time is truthy and some processed pass comes more
      than `DetectionTimeout` after it. A missing frame or detector answer never expires the
      view, however late. */
  lemma {:induction false} QuietPasses(v: View, inputs: seq<FrameInput>, m: nat, n: nat)
    requires m <= n <= |inputs|
    requires forall k :: m <= k < n ==> !Detected(inputs[k])
    ensures var before := ViewRun(v, inputs, m);
      ViewRun(v, inputs, n) ==
        if IsSet(before.time) && QuietTooLong(inputs, m, n, before.time.value) then View([], None) else before
    decreases n
  {
    if n > m {
      QuietPasses(v, inputs, m, n - 1);
      var before := ViewRun(v, inputs, m);
      if IsSet(before.time) {
        QuietTooLongExtend(inputs, m, n, before.time.value);
      }
    }
  }

  /** The staleness timeout over a whole run: after the last pass with detections, the latest
      view holds exactly those detections with their time, unless a later processed pass came
      more than `DetectionTimeout` after them (and their time is truthy), in which case it is
      empty with no time. */
  lemma LatestDetectionsAfterRun(cfg: NM.Config, st: State, inputs: seq<FrameInput>, j: nat)
    requires PicksOk(cfg, inputs) && j < |inputs| && Detected(inputs[j])
    requires forall k :: j < k < |inputs| ==> !Detected(inputs[k])
    ensures var r := Passes(cfg, st, inputs, |inputs|);
      var t := inputs[j].now;
      if t != 0.0 && QuietTooLong(inputs, j + 1, |inputs|, t)
      then r.latestDetections == [] && r.lastDetectionTime.None?
      else r.latestDetections == inputs[j].processed.value.detections && r.lastDetectionTime == Some(t)
  {
    PassesView(cfg, st, inputs, |inputs|);
    QuietPasses(ViewOf(st), inputs, j + 1, |inputs|);
  }

  /** Without any pass that has detections, the initial view stays or expires by the same rule. */
  lemma NoDetectionsAfterRun(cfg: NM.Config, st: State, inputs: seq<FrameInput>)
    requires PicksOk(cfg, inputs)
    requires forall k :: 0 <= k < |inputs| ==> !Detected(inputs[k])
    ensures var r := Passes(cfg, st, inputs, |inputs|);
      if IsSet(st.lastDetectionTime) && QuietTooLong(inputs, 0, |inputs|, st.lastDetectionTime.value)
      then r.latestDetections == [] && r.lastDetectionTime.None?
      else r.latestDetections == st.latestDetections && r.lastDetectionTime == st.lastDetectionTime
  {
    PassesView(cfg, st, inputs, |inputs|);
    QuietPasses(ViewOf(st), inputs, 0, |inputs|);
  }

  /** A successful connection resets the reconnect counter. */
  function Connected(st: State): (r: State)
    ensures r.reconnectAttempts == 0 && r.life == st.life
    ensures r.(reconnectAttempts := st.reconnectAttempts) == st
  {
    st.(reconnectAttempts := 0)
  }

  /** The outer error handler as its code intends: retry while fewer than
      `MaxReconnectAttempts` attempts were made, counting this one; at the bound the stream
      stops and the loop ends. As written the handler is never reached in this form (see
      `OuterLoopAsWritten`). */
  function StreamError(st: State): (r: State)
    ensures st.reconnectAttempts <= MaxReconnectAttempts ==> r.reconnectAttempts <= MaxReconnectAttempts
    ensures st.reconnectAttempts < MaxReconnectAttempts ==>
      r.reconnectAttempts == st.reconnectAttempts + 1 && r.life == st.life
    ensures st.reconnectAttempts >= MaxReconnectAttempts ==>
      !r.life.active && r.reconnectAttempts == st.reconnectAttempts
    ensures st.reconnectAttempts < MaxReconnectAttempts ==> r.(reconnectAttempts := st.reconnectAttempts) == st
    ensures st.reconnectAttempts >= MaxReconnectAttempts ==>
      r.(life := st.life) == st && r.life.(active := st.life.active) == st.life
  {
    if st.reconnectAttempts < MaxReconnectAttempts then st.(reconnectAttempts := st.reconnectAttempts + 1)
    else st.(life := st.life.(active := false))
  }

  /** `k` connection failures in a row. */
  function Failures(st: State, k: nat): State
    decreases k
  {
    if k == 0 then st else Failures(StreamError(st), k - 1)
  }

  /** From a recent connection, the stream survives the first `MaxReconnectAttempts`
      consecutive failures (each scheduling a retry) and stops at the next one; the counter
      never passes its bound. */
  lemma {:induction false} ConsecutiveFailures(st: State, k: nat)
    requires st.reconnectAttempts <= MaxReconnectAttempts
    ensures Failures(st, k).reconnectAttempts == if st.reconnectAttempts + k <= MaxReconnectAttempts
                                                 then st.reconnectAttempts + k else MaxReconnectAttempts
    ensures Failures(st, k).life.active <==> st.life.active && st.reconnectAttempts + k <= MaxReconnectAttempts
    decreases k
  {
    if k > 0 {
      ConsecutiveFailures(StreamError(st), k - 1);
    }
  }

  /** The counter is not reset by `start_stream`: a stream that stopped after exhausting its
      retries and is started again stops at its first connection failure. */
  lemma RestartAfterExhaustionStopsAtFirstFailure(st: State)
    requires st.reconnectAttempts == MaxReconnectAttempts && !st.life.active
    ensures var restarted := st.(life := StartStream(st.life));
      restarted.life.active && !StreamError(restarted).life.active
  {
  }

  /**
   * The outer loop of `process_stream` as the code is written, over the outcomes of its
   * connection attempts (`true` when the stream opened). An opened stream resets the counter
   * and enters the frame loop, which catches every error of a pass itself and only ends when
   * the manager is stopped, so no second attempt follows. The only error that reaches the
   * outer handler is one raised while opening the stream, before `vs` is bound; the handler's
   * first statement, `vs.stop()`, then raises `UnboundLocalError` and the task ends without
   * touching the counter or `active`. The result is the manager, whether the task is still
   * streaming, and the number of attempts made.
   */
  function OuterLoopAsWritten(st: State, attempts: seq<bool>): (r: (State, bool, nat))
    ensures r.0.life == st.life
    ensures r.2 <= 1
    ensures r.1 ==> r.0.reconnectAttempts == 0 && r.0.(reconnectAttempts := st.reconnectAttempts) == st
    ensures !r.1 ==> r.0 == st
  {
    if |attempts| == 0 || !st.life.active then (st, false, 0)
    else if attempts[0] then (Connected(st), true, 1)
    else (st, false, 1)
  }

  /** The outer loop with the handler working as its code intends: a failed attempt goes
      through `StreamError`, which counts it and retries, or stops the stream at the bound. */
  function OuterLoop(st: State, attempts: seq<bool>): (r: (State, bool, nat))
    ensures r.2 <= |attempts|
    ensures r.1 ==> r.0.reconnectAttempts == 0
    decreases |attempts|
  {
    if |attempts| == 0 || !st.life.active then (st, false, 0)
    else if attempts[0] then (Connected(st), true, 1)
    else
      var rest := OuterLoop(StreamError(st), attempts[1..]);
      (rest.0, rest.1, rest.2 + 1)
  }

  /** As written, the loop makes at most one attempt, never counts a failure and never stops
      the stream: a failed attempt leaves the manager exactly as it was, with no task. */
  lemma AsWrittenNeverRetries(st: State, attempts: seq<bool>)
    ensures var r := OuterLoopAsWritten(st, attempts);
      && r.2 <= 1
      && r.0.life == st.life
      && (r.0.reconnectAttempts == 0 || r.0.reconnectAttempts == st.reconnectAttempts)
      && (|attempts| > 0 && st.life.active && !attempts[0] ==> r.0 == st && !r.1)
  {
  }

  /** Every attempt raises inside `VideoStream(url).start()`, the only statement whose error
      reaches the outer handler, on a running stream with no failures counted: as written the
      task ends after one attempt with the stream still marked active and the counter at 0;
      as intended the stream stops after six attempts with the counter at 5. (A camera that
      opens but never delivers a frame takes the frame loop's skip path instead, which leaves
      the manager unchanged, so it never moves the counter either.) */
  lemma FailedOpenEndsTaskAsWritten(st: State)
    requires st.life.active && st.reconnectAttempts == 0
    ensures var asWritten := OuterLoopAsWritten(st, [false, false, false, false, false, false]);
      asWritten.0.life.active && asWritten.0.reconnectAttempts == 0 && !asWritten.1 && asWritten.2 == 1
    ensures var intended := OuterLoop(st, [false, false, false, false, false, false]);
      !intended.0.life.active && intended.0.reconnectAttempts == MaxReconnectAttempts && !intended.1 && intended.2 == 6
  {
    OuterLoopGivesUp(st, [false, false, false, false, false, false]);
  }

  /** As intended, a running stream whose attempts all fail gives up after exactly the
      attempts its counter has left plus one, stopped with the counter at its bound. */
  lemma {:induction false} OuterLoopGivesUp(st: State, attempts: seq<bool>)
    requires st.life.active && st.reconnectAttempts <= MaxReconnectAttempts
    requires forall i :: 0 <= i < |attempts| ==> !attempts[i]
    requires |attempts| > MaxReconnectAttempts - st.reconnectAttempts
    ensures var r := OuterLoop(st, attempts);
      && !r.0.life.active && !r.1
      && r.0.reconnectAttempts == MaxReconnectAttempts
      && r.2 == MaxReconnectAttempts - st.reconnectAttempts + 1
    decreases |attempts|
  {
    var st1 := StreamError(st);
    if st.reconnectAttempts < MaxReconnectAttempts {
      OuterLoopGivesUp(st1, attempts[1..]);
    }
  }

  /** `start_stream` on the whole manager. */
  function Start(st: State): (r: State)
    ensures st.life.active ==> r == st
    ensures r.life == StartStream(st.life)
    ensures r.(life := st.life) == st
  {
    st.(life := StartStream(st.life))
  }

  /** One `monitor_activity` tick on the whole manager. */
  function Tick(st: State): (r: State)
    ensures r.life == MonitorTick(st.life)
    ensures r.life.keepAlive <= 0 ==> !r.life.active && r.life.streamTask.None?
    ensures r.(life := st.life) == st
  {
    st.(life := MonitorTick(st.life))
  }

  /** `get_latest_processed_frame`: the last published pair, or no frame and no detections. */
  function GetLatestProcessedFrame(st: State): (r: (Option<Frame>, seq<Detection>))
    ensures r.0 == st.latestFrame
    ensures r.0.None? ==> r.1 == []
    ensures r.0.Some? ==> r.1 == st.latestFrameDetections
  {
    if st.latestFrame.None? then (None, []) else (st.latestFrame, st.latestFrameDetections)
  }

  /** Reading the latest pair right after a processed frame returns exactly that frame and
      its detections. */
  lemma LatestPairIsLastProcessed(cfg: NM.Config, st: State, input: FrameInput)
    requires PickOk(cfg, input) && input.read.Some? && input.processed.Some?
    ensures GetLatestProcessedFrame(FrameStep(cfg, st, input)) ==
      (Some(input.processed.value.frame), input.processed.value.detections)
  {
  }

  /** Every operation on the manager keeps its invariant. */
  lemma FrameStepKeepsValid(cfg: NM.Config, st: State, input: FrameInput)
    requires Valid(cfg, st) && PickOk(cfg, input)
    ensures Valid(cfg, FrameStep(cfg, st, input))
  {
    if input.read.Some? && input.processed.Some? {
      var p := input.processed.value;
      if |p.detections| > 0 {
        NP.ProcessDetectionKeepsValid(cfg, st.notifier, p.frame, p.detections, input.now, input.pick, input.send);
      }
    }
  }

  lemma ControlKeepsValid(cfg: NM.Config, st: State)
    requires Valid(cfg, st)
    ensures Valid(cfg, Connected(st)) && Valid(cfg, StreamError(st))
    ensures Valid(cfg, Start(st)) && Valid(cfg, Tick(st))
  {
  }

  lemma InitialIsValid(cfg: NM.Config)
    ensures Valid(cfg, Initial)
  {
    NP.InitialIsValid(cfg);
  }
}

=== FILE: text.dfy ===
/**
 * The string operations the curation tool relies on, restricted to what the tool needs:
 * `str.lower()`, `os.path.splitext`, `os.path.join`, `int(str)` and `float(str)`, and the
 * decimal rendering of a frame number in an f-string.
 */
module Text {
  import opened Wrappers

  /** `str.lower()` on one character, for ASCII letters. */
  function LowerChar(c: char): char
  {
    if 'A' <= c <= 'Z' then (c as int + 32) as char else c
  }

  /** `str.lower()`, for ASCII letters. */
  function Lower(s: string): (r: string)
    ensures |r| == |s|
    ensures forall i :: 0 <= i < |s| ==> r[i] == LowerChar(s[i])
    ensures forall i :: 0 <= i < |r| ==> !('A' <= r[i] <= 'Z')
  {
    seq(|s|, i requires 0 <= i < |s| => LowerChar(s[i]))
  }

  /** Lowering twice is lowering once. */
  lemma LowerIdempotent(s: string)
    ensures Lower(Lower(s)) == Lower(s)
  {
  }

  /** Characters Python's `str.isspace` accepts (the whitespace `int` and `float` strip). */
  predicate IsSpace(c: char)
  {
    || c == ' ' || (9 <= c as int <= 13) || (28 <= c as int <= 31)
    || c as int == 0x85 || c as int == 0xA0 || c as int == 0x1680
    || (0x2000 <= c as int <= 0x200A) || c as int == 0x2028 || c as int == 0x2029
    || c as int == 0x202F || c as int == 0x205F || c as int == 0x3000
  }

  predicate IsDigit(c: char)
  {
    '0' <= c <= '9'
  }

  /** Every character of `s` is whitespace. */
  predicate Blank(s: string)
  {
    forall i :: 0 <= i < |s| ==> IsSpace(s[i])
  }

  /** `s` without leading whitespace (`str.lstrip()`): a suffix of `s` behind whitespace. */
  function StripLeft(s: string): (r: string)
    ensures |r| <= |s| && r == s[|s| - |r|..]
    ensures forall k :: 0 <= k < |s| - |r| ==> IsSpace(s[k])
    ensures |r| > 0 ==> !IsSpace(r[0])
    decreases |s|
  {
    if |s| > 0 && IsSpace(s[0]) then
      var r := StripLeft(s[1..]);
      assert forall k :: 0 < k < |s| ==> s[k] == s[1..][k - 1];
      r
    else s
  }

  /** `s` without trailing whitespace (`str.rstrip()`): a prefix of `s` before whitespace. */
  function StripRight(s: string): (r: string)
    ensures |r| <= |s| && r == s[..|r|]
    ensures forall k :: |r| <= k < |s| ==> IsSpace(s[k])
    ensures |r| > 0 ==> !IsSpace(r[|r| - 1])
    decreases |s|
  {
    if |s| > 0 && IsSpace(s[|s| - 1]) then
      var r := StripRight(s[..|s| - 1]);
      assert forall k :: 0 <= k < |s| - 1 ==> s[k] == s[..|s| - 1][k];
      r
    else s
  }

  /** `s` without leading and trailing whitespace (`str.strip()`, as `int` and `float`
      apply it): the contiguous part of `s` that starts at its first non-whitespace
      character, with only whitespace before and after it, and neither starting nor ending
      with whitespace. */
  function Strip(s: string): (r: string)
    ensures var a := |s| - |StripLeft(s)|;
      && a + |r| <= |s| && r == s[a..a + |r|]
      && (forall k :: 0 <= k < a ==> IsSpace(s[k]))
      && (forall k :: a + |r| <= k < |s| ==> IsSpace(s[k]))
    ensures |r| > 0 ==> !IsSpace(r[0]) && !IsSpace(r[|r| - 1])
  {
    var l := StripLeft(s);
    var r := StripRight(l);
    SuffixPrefix(s, |s| - |l|, |r|);
    SuffixBlank(s, |s| - |l|, l, |r|);
    r
  }

  lemma SuffixPrefix(s: string, a: nat, n: nat)
    requires a + n <= |s|
    ensures s[a..][..n] == s[a..a + n]
  {
  }

  lemma SuffixBlank(s: string, a: nat, l: string, n: nat)
    requires a + n <= |s| && l == s[a..]
    requires forall k :: n <= k < |l| ==> IsSpace(l[k])
    ensures forall k :: a + n <= k < |s| ==> IsSpace(s[k])
  {
    forall k | a + n <= k < |s|
      ensures IsSpace(s[k])
    {
      assert s[k] == l[k - a];
    }
  }

  /** Stripping removes only whitespace, and keeps every other character. */
  lemma StripKeepsNonBlanks(s: string)
    ensures |Strip(s)| <= |s|
    ensures forall i :: 0 <= i < |Strip(s)| ==> Strip(s)[i] in s
    ensures forall i :: 0 <= i < |s| ==> IsSpace(s[i]) || s[i] in Strip(s)
  {
    var a := |s| - |StripLeft(s)|;
    forall i | 0 <= i < |s| && !IsSpace(s[i])
      ensures s[i] in Strip(s)
    {
      assert Strip(s)[i - a] == s[i];
    }
  }

  /** Python's grouping rule for digit strings: digits, with single underscores allowed
      only between two digits. */
  predicate WellFormedDigits(s: string)
  {
    && |s| > 0
    && IsDigit(s[0]) && IsDigit(s[|s| - 1])
    && (forall i :: 0 <= i < |s| ==> IsDigit(s[i]) || s[i] == '_')
    && (forall i :: 0 <= i < |s| - 1 ==> !(s[i] == '_' && s[i + 1] == '_'))
  }

  /** The value of the digits of `s` read in base 10, underscores skipped. */
  function DigitsValue(s: string): nat
    decreases |s|
  {
    if |s| == 0 then 0
    else
      var c := s[|s| - 1];
      if IsDigit(c) then DigitsValue(s[..|s| - 1]) * 10 + (c as int - '0' as int)
      else DigitsValue(s[..|s| - 1])
  }

  /** Characters that can occur in a string `int()` accepts. */
  predicate IsIntChar(c: char)
  {
    IsDigit(c) || IsSpace(c) || c == '+' || c == '-' || c == '_'
  }

  /** `int(s)` for a decimal string: surrounding whitespace, an optional sign, and a
      well-formed digit string; anything else raises `ValueError` (`None` here). The value
      read is that of all the digits of `s` in order, negative only with a `-` sign. */
  function ParseInt(s: string): (r: Option<int>)
    ensures r.Some? ==> forall i :: 0 <= i < |s| ==> IsIntChar(s[i])
    ensures r.Some? ==> exists i :: 0 <= i < |s| && IsDigit(s[i])
    ensures r.Some? ==> r.value == DigitsValue(s) || r.value == -(DigitsValue(s) as int)
    ensures r.Some? && r.value < 0 ==> '-' in s
  {
    StripKeepsNonBlanks(s);
    StripKeepsDigits(s);
    ParseStripped(Strip(s))
  }

  /** The grammar `int` applies once the whitespace is stripped: an optional sign, then a
      well-formed digit string. */
  function ParseStripped(t: string): (r: Option<int>)
    ensures r.Some? ==> forall c :: c in t ==> IsIntChar(c)
    ensures r.Some? ==> exists c :: c in t && IsDigit(c)
    ensures r.Some? ==> r.value == DigitsValue(t) || r.value == -(DigitsValue(t) as int)
    ensures r.Some? && r.value < 0 ==> '-' in t
  {
    if |t| > 0 && (t[0] == '+' || t[0] == '-') then
      if WellFormedDigits(t[1..]) then
        SignedDigits(t);
        var v: int := DigitsValue(t[1..]);
        Some(if t[0] == '-' then -v else v)
      else None
    else if WellFormedDigits(t) then
      assert t[0] in t;
      Some(DigitsValue(t))
    else None
  }

  lemma SignedDigits(t: string)
    requires |t| > 0 && (t[0] == '+' || t[0] == '-') && WellFormedDigits(t[1..])
    ensures forall c :: c in t ==> IsIntChar(c)
    ensures t[1] in t && IsDigit(t[1])
    ensures DigitsValue(t) == DigitsValue(t[1..])
  {
    assert t[1..][0] == t[1];
    forall c | c in t
      ensures IsIntChar(c)
    {
      var i :| 0 <= i < |t| && t[i] == c;
      if i > 0 {
        assert t[i] == t[1..][i - 1];
      }
    }
    assert t == [t[0]] + t[1..] + [];
    DigitsValueSkips([t[0]], t[1..], []);
  }

  /** Stripping loses no digit: the value read from `s` is the value read from `Strip(s)`. */
  lemma StripKeepsDigits(s: string)
    ensures DigitsValue(s) == DigitsValue(Strip(s))
  {
    BlankFrameDigits(s, |s| - |StripLeft(s)|, |Strip(s)|);
  }

  /** Whitespace before position `a` and from `a + n` on adds no digit. */
  lemma BlankFrameDigits(s: string, a: nat, n: nat)
    requires a + n <= |s|
    requires forall k :: 0 <= k < a ==> IsSpace(s[k])
    requires forall k :: a + n <= k < |s| ==> IsSpace(s[k])
    ensures DigitsValue(s) == DigitsValue(s[a..a + n])
  {
    var pre, t, post := s[..a], s[a..a + n], s[a + n..];
    forall i | 0 <= i < |pre|
      ensures !IsDigit(pre[i])
    {
      assert pre[i] == s[i];
    }
    forall i | 0 <= i < |post|
      ensures !IsDigit(post[i])
    {
      assert post[i] == s[a + n + i];
    }
    assert s == pre + t + post;
    DigitsValueSkips(pre, t, post);
  }

  /** No character of `s` is a digit. */
  predicate NoDigits(s: string)
  {
    forall i :: 0 <= i < |s| ==> !IsDigit(s[i])
  }

  lemma {:induction false} DigitsValueOfNoDigits(s: string)
    requires NoDigits(s)
    ensures DigitsValue(s) == 0
    decreases |s|
  {
    if |s| > 0 {
      DigitsValueOfNoDigits(s[..|s| - 1]);
    }
  }

  /** Characters other than digits, before or after, do not change the value read. */
  lemma {:induction false} DigitsValueSkips(pre: string, core: string, post: string)
    requires NoDigits(pre) && NoDigits(post)
    ensures DigitsValue(pre + core + post) == DigitsValue(core)
    decreases |core| + |post|
  {
    var s := pre + core + post;
    if |post| > 0 {
      assert s[..|s| - 1] == pre + core + post[..|post| - 1];
      DigitsValueSkips(pre, core, post[..|post| - 1]);
    } else if |core| > 0 {
      assert s[..|s| - 1] == pre + core[..|core| - 1] + post;
      DigitsValueSkips(pre, core[..|core| - 1], post);
    } else {
      assert s == pre;
      DigitsValueOfNoDigits(pre);
    }
  }

  /** The decimal rendering of a natural number (`f"{n}"`). */
  function NatToString(n: nat): (r: string)
    ensures |r| > 0
    ensures forall i :: 0 <= i < |r| ==> IsDigit(r[i])
    decreases n
  {
    if n < 10 then [('0' as int + n) as char]
    else NatToString(n / 10) + [('0' as int + n % 10) as char]
  }

  /** Reading back a rendered number gives the number. */
  lemma {:induction false} DigitsValueOfNatToString(n: nat)
    ensures DigitsValue(NatToString(n)) == n
    decreases n
  {
    if n >= 10 {
      DigitsValueOfNatToString(n / 10);
      var s := NatToString(n);
      assert s[..|s| - 1] == NatToString(n / 10);
    }
  }

  /** `int(f"{n}") == n`. */
  lemma ParseIntOfNatToString(n: nat)
    ensures ParseInt(NatToString(n)) == Some(n)
  {
    var s := NatToString(n);
    NatToStringWellFormed(n);
    assert "" + "" + s + "" == s;
    ParseIntPadded("", "", s, "");
  }

  /** `int` reads a well-formed digit string (underscores between digits allowed) with an
      optional sign and any surrounding whitespace: `int(lead + sign + digits + trail)` is
      the value of the digits, negated for a `-` sign. */
  lemma ParseIntPadded(lead: string, sign: string, digits: string, trail: string)
    requires Blank(lead) && Blank(trail)
    requires sign == "" || sign == "+" || sign == "-"
    requires WellFormedDigits(digits)
    ensures ParseInt(lead + sign + digits + trail) ==
      Some(if sign == "-" then -(DigitsValue(digits) as int) else DigitsValue(digits))
  {
    var core := sign + digits;
    ParseStrippedLiteral(sign, digits);
    Regroup(lead, sign, digits, trail);
    StripFramed(lead, core, trail);
    assert ParseInt(lead + core + trail) == ParseStripped(core);
  }

  lemma Regroup(a: string, b: string, c: string, d: string)
    ensures a + b + c + d == a + (b + c) + d
  {
  }

  lemma NatToStringWellFormed(n: nat)
    ensures WellFormedDigits(NatToString(n)) && DigitsValue(NatToString(n)) == n
  {
    var digits := NatToString(n);
    DigitsValueOfNatToString(n);
    assert IsDigit(digits[0]) && IsDigit(digits[|digits| - 1]);
  }

  /** An optional sign and a well-formed digit string read as the digits' value, negated for
      `-`. */
  lemma ParseStrippedLiteral(sign: string, t: string)
    requires sign == "" || sign == "+" || sign == "-"
    requires WellFormedDigits(t)
    ensures var core := sign + t;
      && |core| > 0 && !IsSpace(core[0]) && !IsSpace(core[|core| - 1])
      && ParseStripped(core) == Some(if sign == "-" then -(DigitsValue(t) as int) else DigitsValue(t))
  {
    var core := sign + t;
    assert core[|core| - 1] == t[|t| - 1];
    assert core[0] == if sign == "" then t[0] else sign[0];
    SignOrDigitNotSpace(core[0]);
    SignOrDigitNotSpace(core[|core| - 1]);
    if sign == "" {
      assert core == t;
      UnsignedLiteral(t);
    } else {
      SignPrefix(sign, t);
      SignedLiteral(core);
    }
  }

  lemma SignOrDigitNotSpace(c: char)
    requires IsDigit(c) || c == '+' || c == '-'
    ensures !IsSpace(c)
  {
  }

  lemma SignPrefix(sign: string, t: string)
    requires |sign| == 1
    ensures (sign + t)[0] == sign[0] && (sign + t)[1..] == t
  {
  }

  lemma UnsignedLiteral(t: string)
    requires WellFormedDigits(t)
    ensures ParseStripped(t) == Some(DigitsValue(t))
  {
    assert t[0] != '+' && t[0] != '-';
  }

  lemma SignedLiteral(core: string)
    requires |core| > 0 && (core[0] == '+' || core[0] == '-') && WellFormedDigits(core[1..])
    ensures ParseStripped(core) == Some(if core[0] == '-' then -(DigitsValue(core[1..]) as int) else DigitsValue(core[1..]))
  {
  }

  /** Stripping removes exactly the whitespace around a part that neither starts nor ends
      with whitespace. */
  lemma StripFramed(lead: string, core: string, trail: string)
    requires Blank(lead) && Blank(trail)
    requires |core| > 0 && !IsSpace(core[0]) && !IsSpace(core[|core| - 1])
    ensures Strip(lead + core + trail) == core
  {
    StripLeftBlank(lead, core + trail);
    assert lead + core + trail == lead + (core + trail);
    StripRightBlank(core, trail);
  }

  lemma {:induction false} StripLeftBlank(lead: string, rest: string)
    requires Blank(lead) && |rest| > 0 && !IsSpace(rest[0])
    ensures StripLeft(lead + rest) == rest
    decreases |lead|
  {
    if |lead| > 0 {
      assert (lead + rest)[1..] == lead[1..] + rest;
      StripLeftBlank(lead[1..], rest);
    } else {
      assert lead + rest == rest;
    }
  }

  lemma {:induction false} StripRightBlank(rest: string, trail: string)
    requires Blank(trail) && |rest| > 0 && !IsSpace(rest[|rest| - 1])
    ensures StripRight(rest + trail) == rest
    decreases |trail|
  {
    if |trail| > 0 {
      var s := rest + trail;
      assert s[..|s| - 1] == rest + trail[..|trail| - 1];
      StripRightBlank(rest, trail[..|trail| - 1]);
    } else {
      assert rest + trail == rest;
    }
  }

  /** The rendering is injective. */
  lemma NatToStringInjective(m: nat, n: nat)
    requires NatToString(m) == NatToString(n)
    ensures m == n
  {
    DigitsValueOfNatToString(m);
    DigitsValueOfNatToString(n);
  }

  /** A Python float: a finite value, an infinity, or not-a-number. */
  datatype PyFloat = Finite(value: real) | Infinity(negative: bool) | NaN

  /** `x >= t` for a finite `x` under IEEE comparison. */
  predicate AtLeast(x: real, t: PyFloat)
  {
    match t
    case Finite(v) => x >= v
    case Infinity(negative) => negative
    case NaN => false
  }

  function Pow10(e: nat): (r: real)
    ensures r >= 1.0
  {
    if e == 0 then 1.0 else 10.0 * Pow10(e - 1)
  }

  /** The value of `digits.fraction` as an exact decimal. */
  function DecimalValue(intPart: string, fracPart: string): real
  {
    DigitsValue(intPart) as real + DigitsValue(fracPart) as real / Pow10(|fracPart|)
  }

  /** First index of `c` in `s`, or `|s|`. */
  function IndexOf(s: string, c: char): (k: nat)
    ensures k <= |s|
    ensures k < |s| ==> s[k] == c
    ensures forall i :: 0 <= i < k ==> s[i] != c
    decreases |s|
  {
    if |s| == 0 then 0 else if s[0] == c then 0 else 1 + IndexOf(s[1..], c)
  }

  /** The exponent part of a float literal: an optional sign and a digit string. */
  function ParseExponent(s: string): Option<int>
  {
    if |s| > 0 && (s[0] == '+' || s[0] == '-') then
      if WellFormedDigits(s[1..]) then
        var v: int := DigitsValue(s[1..]);
        Some(if s[0] == '-' then -v else v)
      else None
    else if WellFormedDigits(s) then Some(DigitsValue(s))
    else None
  }

  /** An unsigned decimal literal `digits[.digits][e[sign]digits]` or `.digits[...]`, read exactly. */
  function ParseUnsignedDecimal(s: string): Option<real>
  {
    var e := if IndexOf(s, 'e') < |s| then IndexOf(s, 'e') else IndexOf(s, 'E');
    var mantissa := s[..e];
    var exponent := if e < |s| then ParseExponent(s[e + 1..]) else Some(0);
    var dot := IndexOf(mantissa, '.');
    var intPart := mantissa[..dot];
    var fracPart := if dot < |mantissa| then mantissa[dot + 1..] else "";
    if exponent.None? then None
    else if |intPart| == 0 && |fracPart| == 0 then None
    else if |intPart| > 0 && !WellFormedDigits(intPart) then None
    else if |fracPart| > 0 && !WellFormedDigits(fracPart) then None
    else
      var m := DecimalValue(intPart, fracPart);
      var x := exponent.value;
      Some(if x >= 0 then m * Pow10(x) else m / Pow10(-x))
  }

  /** `float(s)`: surrounding whitespace, an optional sign, then a decimal literal or one of
      `inf`, `infinity`, `nan` in any letter case; anything else raises `ValueError`. */
  function ParseFloat(s: string): (r: Option<PyFloat>)
    ensures |Strip(s)| == 0 ==> r.None?
  {
    var t := Strip(s);
    if |t| == 0 then None
    else if t[0] == '+' || t[0] == '-' then ParseUnsignedFloat(t[0] == '-', t[1..])
    else ParseUnsignedFloat(false, t)
  }

  /** The part of a float literal after its sign. */
  function ParseUnsignedFloat(negative: bool, body: string): Option<PyFloat>
  {
    var word := Lower(body);
    if word == "inf" || word == "infinity" then Some(Infinity(negative))
    else if word == "nan" then Some(NaN)
    else
      match ParseUnsignedDecimal(body)
      case Some(v) => Some(Finite(if negative then -v else v))
      case None => None
  }

  /** `float` reads a plain decimal exactly. */
  lemma ParseFloatDecimal()
    ensures ParseFloat("0.55") == Some(Finite(0.55))
  {
    DecimalLiteral();
    ParseFloatUnsigned("0.55");
  }

  /** A literal that starts and ends with a digit is read as an unsigned decimal. */
  lemma ParseFloatUnsigned(s: string)
    requires |s| > 0 && IsDigit(s[0]) && IsDigit(s[|s| - 1])
    ensures ParseFloat(s) ==
      (if ParseUnsignedDecimal(s).Some? then Some(Finite(ParseUnsignedDecimal(s).value)) else None)
  {
    StripNoBlanks(s);
    assert s[0] != '+' && s[0] != '-';
    UnsignedFloatOfDigits(s);
  }

  lemma UnsignedFloatOfDigits(s: string)
    requires |s| > 0 && IsDigit(s[0])
    ensures ParseUnsignedFloat(false, s) ==
      (if ParseUnsignedDecimal(s).Some? then Some(Finite(ParseUnsignedDecimal(s).value)) else None)
  {
    assert Lower(s)[0] == s[0];
    assert "inf"[0] == 'i' && "infinity"[0] == 'i' && "nan"[0] == 'n';
  }

  /** `float` accepts `nan` in any letter case with surrounding blanks. */
  lemma ParseFloatNan(s: string)
    requires Lower(Strip(s)) == "nan"
    ensures ParseFloat(s) == Some(NaN)
  {
    var t := Strip(s);
    assert LowerChar(t[0]) == 'n';
    assert t[0] != '+' && t[0] != '-';
    assert "nan"[0] != "inf"[0];
  }

  /** `float` rejects a word. */
  lemma ParseFloatRejectsWord()
    ensures ParseFloat("gun") == None
  {
    StripNoBlanks("gun");
    assert "gun"[0] == 'g';
    UnsignedFloatRejectsWord();
  }

  lemma UnsignedFloatRejectsWord()
    ensures ParseUnsignedFloat(false, "gun") == None
  {
    WordLiteral();
  }

  lemma StripNoBlanks(s: string)
    requires |s| > 0 && !IsSpace(s[0]) && !IsSpace(s[|s| - 1])
    ensures Strip(s) == s
  {
  }

  lemma DecimalLiteral()
    ensures ParseUnsignedDecimal("0.55") == Some(0.55)
  {
    var s := "0.55";
    assert IndexOf(s, 'e') == 4 && IndexOf(s, 'E') == 4;
    assert s[..4] == s;
    assert IndexOf(s, '.') == 1;
    assert s[..1] == "0" && s[2..] == "55";
    DigitsOf55();
  }

  lemma DigitsOf55()
    ensures WellFormedDigits("0") && WellFormedDigits("55")
    ensures DigitsValue("0") == 0 && DigitsValue("55") == 55
  {
    assert "55"[..1] == "5";
  }

  lemma WordLiteral()
    ensures ParseUnsignedDecimal("gun") == None
    ensures Lower("gun") == "gun"
  {
    assert IndexOf("gun", 'e') == 3 && IndexOf("gun", 'E') == 3;
    assert IndexOf("gun", '.') == 3;
    assert !WellFormedDigits("gun");
  }

  /** Python's `os.path.splitext` on a file name without separators: the extension starts
      at the last dot, provided some character before that dot is not a dot. */
  function SplitExt(p: string): (r: (string, string))
    ensures r.0 + r.1 == p
    ensures r.1 == "" || (r.1[0] == '.' && forall i :: 1 <= i < |r.1| ==> r.1[i] != '.')
    ensures r.1 != "" ==> exists i :: 0 <= i < |r.0| && r.0[i] != '.'
    ensures r.1 == "" ==> forall d :: 0 <= d < |p| && p[d] == '.' ==>
      (forall i :: 0 <= i < d ==> p[i] == '.') || exists j :: d < j < |p| && p[j] == '.'
  {
    var d := LastIndexOf(p, '.');
    if d < |p| && exists i :: 0 <= i < d && p[i] != '.' then
      assert p[..d] + p[d..] == p;
      (p[..d], p[d..])
    else (p, "")
  }

  /** Last index of `c` in `s`, or `|s|` when absent. */
  function LastIndexOf(s: string, c: char): (k: nat)
    ensures k <= |s|
    ensures k < |s| ==> s[k] == c && forall j :: k < j < |s| ==> s[j] != c
    ensures k == |s| ==> forall j :: 0 <= j < |s| ==> s[j] != c
    decreases |s|
  {
    if |s| == 0 then 0
    else if s[|s| - 1] == c then |s| - 1
    else
      var k := LastIndexOf(s[..|s| - 1], c);
      if k == |s| - 1 then |s| else k
  }

  /** `os.path.join(a, b)`: an absolute `b` wins; otherwise a separator is inserted unless
      `a` is empty or already ends with one. */
  function Join(a: string, b: string): (r: string)
    ensures |b| > 0 && b[0] == '/' ==> r == b
    ensures |r| >= |b|
    ensures !(|b| > 0 && b[0] == '/') ==>
      && |r| == |a| + |b| + (if |a| > 0 && a[|a| - 1] != '/' then 1 else 0)
      && r[..|a|] == a
      && r[|r| - |b|..] == b
      && (|r| > |a| + |b| ==> r[|a|] == '/')
  {
    if |b| > 0 && b[0] == '/' then b
    else if |a| == 0 || a[|a| - 1] == '/' then a + b
    else a + "/" + b
  }
}

=== FILE: video_to_image.dfy ===
/**
 * The selection logic of the dataset curation script: command-line parsing, the video
 * file filter, every-nth-frame sampling with the first-qualifying-detection test, image
 * filtering, and duplicate removal by content hash. The detector, the file system and the
 * hash function are inputs.
 */
module VideoToImage {
  import opened Wrappers
  import opened Text
  import opened Seqs
  import opened Detections

  /** The extensions recognised as videos, compared after lower-casing. */
  const VideoExtensions: set<string> := {".mp4", ".avi", ".mov", ".mkv"}

  /** Classes used when none are given. */
  const DefaultClasses: seq<string> := ["pistol", "gun"]

  const DefaultFrameInterval: int := 10
  const DefaultConfidence: real := 0.55

  /** The confidence threshold `process_video` always passes to the detector test. */
  const VideoShotThreshold: PyFloat := Finite(0.55)

  /** Spellings of a true `draw_boxes` argument after lower-casing. */
  const TrueSpellings: seq<string> := ["true", "1", "yes"]

  /** One box of a detector result: its confidence and its class name, already looked up in
      the model's name table (`""` for an unknown class id). */
  datatype Box = Box(confidence: real, className: string)

  /** The detector's results for one image: one box list per result (a result without boxes
      is an empty list). */
  type Results = seq<seq<Box>>

  // ---------------------------------------------------------------------------------------
  // Command line

  /** The settings the script derives from its arguments. */
  datatype Args = Args(
    mode: string,
    drawBoxes: bool,
    inputFolder: string,
    outputFolder: string,
    classes: seq<string>,
    frameInterval: int,
    confidence: PyFloat)

  /** What the script goes on to do. */
  datatype Job =
    | VideoShots(videosFolder: string, outputFolder: string, classes: seq<string>, frameInterval: int, drawBoxes: bool)
    | FilterImages(folder: string, classes: seq<string>, threshold: PyFloat)

  /** Python's `argv[5:-2]` for a list of at least six entries. */
  function ClassArgs(argv: seq<string>): (r: seq<string>)
    requires |argv| >= 6
    ensures |argv| <= 7 ==> r == []
    ensures |argv| > 7 ==> |r| == |argv| - 7 && forall i :: 0 <= i < |r| ==> r[i] == argv[5 + i]
  {
    if |argv| - 2 > 5 then argv[5..|argv| - 2] else []
  }

  /** `int(argv[-2])` then `float(argv[-1])`; if either raises, both take their defaults. */
  function NumericArgs(argv: seq<string>): (r: (int, PyFloat))
    requires |argv| >= 2
    ensures ParseInt(argv[|argv| - 2]).Some? && ParseFloat(argv[|argv| - 1]).Some? ==>
      r == (ParseInt(argv[|argv| - 2]).value, ParseFloat(argv[|argv| - 1]).value)
    ensures ParseInt(argv[|argv| - 2]).None? || ParseFloat(argv[|argv| - 1]).None? ==>
      r == (DefaultFrameInterval, Finite(DefaultConfidence))
  {
    match ParseInt(argv[|argv| - 2])
    case None => (DefaultFrameInterval, Finite(DefaultConfidence))
    case Some(n) =>
      match ParseFloat(argv[|argv| - 1])
      case None => (DefaultFrameInterval, Finite(DefaultConfidence))
      case Some(c) => (n, c)
  }

  /** The `draw_boxes` argument is true exactly for `true`, `1` or `yes` in any ASCII case. */
  predicate DrawBoxesArg(arg: string)
  {
    Lower(arg) in TrueSpellings
  }

  /** Argument parsing of the script's entry point: fewer than six entries exit with code 1;
      otherwise the fields are read by position, the classes are everything between the
      output folder and the last two entries (the defaults when there are none). */
  function ParseArgv(argv: seq<string>): (r: Result<Args, nat>)
    ensures |argv| < 6 <==> r == Failure(1)
    ensures r.Success? ==>
      && r.value.mode == argv[1]
      && r.value.inputFolder == argv[3]
      && r.value.outputFolder == argv[4]
      && (r.value.drawBoxes <==> Lower(argv[2]) in TrueSpellings)
      && r.value.classes == (if ClassArgs(argv) == [] then DefaultClasses else ClassArgs(argv))
      && (r.value.frameInterval, r.value.confidence) == NumericArgs(argv)
  {
    if |argv| < 6 then Failure(1)
    else
      var classes := ClassArgs(argv);
      var numbers := NumericArgs(argv);
      Success(Args(argv[1], DrawBoxesArg(argv[2]), argv[3], argv[4],
                   if classes == [] then DefaultClasses else classes,
                   numbers.0, numbers.1))
  }

  /** The mode dispatch: `videoShots` processes videos (the parsed confidence is not passed
      on), `filterImages` filters with the parsed confidence, any other mode exits with 1. */
  function Dispatch(args: Args): (r: Result<Job, nat>)
    ensures args.mode == "videoShots" ==>
      r == Success(VideoShots(args.inputFolder, args.outputFolder, args.classes, args.frameInterval, args.drawBoxes))
    ensures args.mode == "filterImages" ==> r == Success(FilterImages(args.inputFolder, args.classes, args.confidence))
    ensures args.mode != "videoShots" && args.mode != "filterImages" ==> r == Failure(1)
  {
    if args.mode == "videoShots" then
      Success(VideoShots(args.inputFolder, args.outputFolder, args.classes, args.frameInterval, args.drawBoxes))
    else if args.mode == "filterImages" then
      Success(FilterImages(args.inputFolder, args.classes, args.confidence))
    else Failure(1)
  }

  /** The whole entry point up to the job it runs, or its exit code. */
  function Main(argv: seq<string>): (r: Result<Job, nat>)
    ensures r.Failure? ==> r.error == 1
    ensures r.Success? <==> |argv| >= 6 && (argv[1] == "videoShots" || argv[1] == "filterImages")
    ensures r.Success? && r.value.VideoShots? ==>
      && argv[1] == "videoShots"
      && r.value.videosFolder == argv[3] && r.value.outputFolder == argv[4]
      && r.value.frameInterval == NumericArgs(argv).0
      && (r.value.drawBoxes <==> Lower(argv[2]) in TrueSpellings)
    ensures r.Success? && r.value.FilterImages? ==>
      argv[1] == "filterImages" && r.value.folder == argv[3] && r.value.threshold == NumericArgs(argv).1
    ensures r.Success? ==> r.value.classes == (if ClassArgs(argv) == [] then DefaultClasses else ClassArgs(argv))
  {
    match ParseArgv(argv)
    case Failure(code) => Failure(code)
    case Success(args) => Dispatch(args)
  }

  /** In `videoShots` mode the last argument has no effect on the job as long as it parses:
      the detection threshold is fixed at `VideoShotThreshold`. */
  lemma VideoShotsIgnoresConfidence(argv: seq<string>, last: string)
    requires |argv| >= 6 && argv[1] == "videoShots"
    ensures ParseFloat(argv[|argv| - 1]).Some? && ParseFloat(last).Some? ==>
      Main(argv) == Main(argv[..|argv| - 1] + [last])
  {
    var argv' := argv[..|argv| - 1] + [last];
    if !(ParseFloat(argv[|argv| - 1]).Some? && ParseFloat(last).Some?) {
      return;
    }
    ReplaceLast(argv, last);
    ClassArgsIgnoreLast(argv, argv');
    assert argv'[|argv'| - 2] == argv[|argv| - 2];
    var a, a' := ParseArgv(argv).value, ParseArgv(argv').value;
    assert a'.frameInterval == a.frameInterval;
    assert a' == a.(confidence := a'.confidence);
    DispatchIgnoresConfidence(a, a'.confidence);
  }

  lemma DispatchIgnoresConfidence(args: Args, c: PyFloat)
    requires args.mode == "videoShots"
    ensures Dispatch(args.(confidence := c)) == Dispatch(args)
  {
  }

  lemma ReplaceLast(argv: seq<string>, last: string)
    requires |argv| > 0
    ensures var argv' := argv[..|argv| - 1] + [last];
      |argv'| == |argv| && argv'[|argv| - 1] == last && forall i :: 0 <= i < |argv| - 1 ==> argv'[i] == argv[i]
  {
  }

  lemma ClassArgsIgnoreLast(argv: seq<string>, argv': seq<string>)
    requires |argv| >= 6 && |argv'| == |argv|
    requires forall i :: 0 <= i < |argv| - 1 ==> argv'[i] == argv[i]
    ensures ClassArgs(argv') == ClassArgs(argv)
  {
  }

  /** Some character of `s` cannot occur in an integer literal (a letter, say). */
  predicate HasNonIntChar(s: string)
  {
    exists i :: 0 <= i < |s| && !IsIntChar(s[i])
  }

  /** The desktop front end passes no confidence argument:
      `[script, mode, draw, input, output] + classes + [interval]`. Then the last class is
      read as the frame interval, a class name that is not a number makes `int` fail, the
      interval and confidence fall back to 10 and 0.55, and the last class is dropped
      (a single class leaves the default classes). */
  lemma FrontEndArgvDropsLastClass(script: string, mode: string, draw: string, input: string, output: string,
                                   classes: seq<string>, interval: nat)
    requires |classes| >= 1
    requires HasNonIntChar(classes[|classes| - 1])
    ensures var r := ParseArgv([script, mode, draw, input, output] + classes + [NatToString(interval)]);
      && r.Success?
      && r.value.frameInterval == DefaultFrameInterval
      && r.value.confidence == Finite(DefaultConfidence)
      && r.value.classes == (if |classes| == 1 then DefaultClasses else classes[..|classes| - 1])
  {
    var argv := [script, mode, draw, input, output] + classes + [NatToString(interval)];
    assert argv[|argv| - 2] == classes[|classes| - 1];
    assert ParseInt(argv[|argv| - 2]).None?;
    if |classes| > 1 {
      assert ClassArgs(argv) == classes[..|classes| - 1];
    }
  }

  // ---------------------------------------------------------------------------------------
  // Video discovery

  /** A top-level directory listing entry. */
  datatype DirEntry = DirEntry(name: string, isFile: bool)

  /** A regular file whose lower-cased extension is one of the video extensions. */
  predicate IsVideo(e: DirEntry)
  {
    e.isFile && Lower(SplitExt(e.name).1) in VideoExtensions
  }

  /** The video paths of `process_videos_in_folder`, in listing order. */
  function VideoFiles(folder: string, listing: seq<DirEntry>): (r: seq<string>)
    ensures |r| <= |listing|
    ensures forall i :: 0 <= i < |listing| && IsVideo(listing[i]) ==> Join(folder, listing[i].name) in r
    ensures forall k :: 0 <= k < |r| ==> exists e :: e in listing && IsVideo(e) && r[k] == Join(folder, e.name)
  {
    var videos := Filter(listing, IsVideo);
    var r := seq(|videos|, k requires 0 <= k < |videos| => Join(folder, videos[k].name));
    assert forall i :: 0 <= i < |listing| && IsVideo(listing[i]) ==> Join(folder, listing[i].name) in r by {
      forall i | 0 <= i < |listing| && IsVideo(listing[i])
        ensures Join(folder, listing[i].name) in r
      {
        var k :| 0 <= k < |videos| && videos[k] == listing[i];
        assert r[k] == Join(folder, listing[i].name);
      }
    }
    assert forall k :: 0 <= k < |r| ==> exists e :: e in listing && IsVideo(e) && r[k] == Join(folder, e.name) by {
      forall k | 0 <= k < |r|
        ensures exists e :: e in listing && IsVideo(e) && r[k] == Join(folder, e.name)
      {
        assert videos[k] in listing && IsVideo(videos[k]) && r[k] == Join(folder, videos[k].name);
      }
    }
    r
  }

  /** Discovery is order-preserving: listing `a` then `b` finds `a`'s videos then `b`'s. */
  lemma VideoFilesAppend(folder: string, a: seq<DirEntry>, b: seq<DirEntry>)
    ensures VideoFiles(folder, a + b) == VideoFiles(folder, a) + VideoFiles(folder, b)
  {
    FilterAppend(a, b, IsVideo);
  }

  /** In `stem.xyz` with a three-letter extension the last dot precedes the extension. */
  lemma LastDotOfStemDotThree(stem: string, x: char, y: char, z: char)
    requires x != '.' && y != '.' && z != '.'
    ensures LastIndexOf(stem + [ '.', x, y, z], '.') == |stem|
  {
    var s1 := stem + ['.'];
    var s2 := stem + ['.', x];
    var s3 := stem + ['.', x, y];
    var s4 := stem + ['.', x, y, z];
    assert LastIndexOf(s1, '.') == |stem|;
    assert s2[..|s2| - 1] == s1;
    assert LastIndexOf(s2, '.') == |stem|;
    assert s3[..|s3| - 1] == s2;
    assert LastIndexOf(s3, '.') == |stem|;
    assert s4[..|s4| - 1] == s3;
  }

  /** The extension test ignores letter case, and a name that is only an extension
      (`.mp4`) has no extension at all. */
  lemma ExtensionExamples()
    ensures IsVideo(DirEntry("CLIP.MP4", true))
    ensures !IsVideo(DirEntry("clip.mp4", false))
    ensures !IsVideo(DirEntry(".mp4", true))
  {
    SplitExtStemDotThree("CLIP", 'M', 'P', '4');
    LowerMp4();
    HiddenNameHasNoExtension();
  }

  /** `stem.xyz` splits into `stem` and `.xyz` when the stem does not start with a dot. */
  lemma SplitExtStemDotThree(stem: string, x: char, y: char, z: char)
    requires |stem| > 0 && stem[0] != '.' && x != '.' && y != '.' && z != '.'
    ensures SplitExt(stem + ['.', x, y, z]) == (stem, ['.', x, y, z])
  {
    var p := stem + ['.', x, y, z];
    LastDotOfStemDotThree(stem, x, y, z);
    assert p[0] != '.';
    assert p[..|stem|] == stem;
    assert p[|stem|..] == ['.', x, y, z];
  }

  lemma LowerMp4()
    ensures "CLIP.MP4" == "CLIP" + ['.', 'M', 'P', '4']
    ensures Lower(['.', 'M', 'P', '4']) == ".mp4"
  {
  }

  lemma HiddenNameHasNoExtension()
    ensures SplitExt(".mp4") == (".mp4", "")
    ensures Lower("") == ""
  {
    assert ".mp4"[0] == '.' && ".mp4"[1] == 'm' && ".mp4"[2] == 'p' && ".mp4"[3] == '4';
    assert LastIndexOf(".mp4", '.') == 0;
  }

  // ---------------------------------------------------------------------------------------
  // Detection test and frame sampling

  /** A box counts when its confidence reaches the threshold (an IEEE comparison, so a NaN
      threshold admits nothing) and its class is wanted. */
  predicate Qualifying(b: Box, classes: seq<string>, threshold: PyFloat)
  {
    AtLeast(b.confidence, threshold) && b.className in classes
  }

  /** Some box of some result counts. */
  predicate Qualifies(results: Results, classes: seq<string>, threshold: PyFloat)
  {
    exists i, j :: 0 <= i < |results| && 0 <= j < |results[i]| && Qualifying(results[i][j], classes, threshold)
  }

  /**
   * `annotate_image` on an in-memory image: scan results and boxes in order, stop at the
   * first qualifying box, and return `[image]` if one was found and `[]` otherwise
   * (drawing the boxes is not modelled: the image stands for its annotated copy).
   */
  method AnnotateImage(image: Frame, results: Results, classes: seq<string>, threshold: PyFloat)
    returns (images: seq<Frame>)
    ensures |images| <= 1
    ensures Qualifies(results, classes, threshold) ==> images == [image]
    ensures !Qualifies(results, classes, threshold) ==> images == []
  {
    var found := false;
    var i := 0;
    while i < |results|
      invariant 0 <= i <= |results|
      invariant found ==> Qualifies(results, classes, threshold)
      invariant !found ==> forall a, b :: 0 <= a < i && 0 <= b < |results[a]| ==> !Qualifying(results[a][b], classes, threshold)
    {
      var boxes := results[i];
      var j := 0;
      while j < |boxes|
        invariant 0 <= j <= |boxes|
        invariant found ==> Qualifies(results, classes, threshold)
        invariant !found ==> forall b :: 0 <= b < j ==> !Qualifying(boxes[b], classes, threshold)
      {
        if AtLeast(boxes[j].confidence, threshold) && boxes[j].className in classes {
          found := true;
          break;
        }
        j := j + 1;
      }
      if found {
        break;
      }
      i := i + 1;
    }
    if found {
      images := [image];
    } else {
      images := [];
    }
  }

  /** The file name a saved detection gets: `{video}_frame{k}_detection{i}.jpg`. */
  function OutputName(videoName: string, frameIndex: nat, detection: nat): string
  {
    videoName + "_frame" + NatToString(frameIndex) + "_detection" + NatToString(detection) + ".jpg"
  }

  /** One written image: its file name and the frame written. */
  datatype Saved = Saved(name: string, image: Frame)

  /** `process_video` crashes on its first frame when the interval is 0. */
  datatype VideoError = ZeroFrameInterval

  /** Python's `k % n == 0`: the remainder is zero exactly when `n` divides `k`, for either
      sign of `n`, which is also when Dafny's remainder is zero. */
  predicate Sampled(k: nat, interval: int)
    requires interval != 0
  {
    k % interval == 0
  }

  /** The images `process_video` writes for the first `n` frames. */
  function SavesUpTo(videoName: string, frames: seq<Frame>, detect: Frame -> Results,
                     classes: seq<string>, interval: int, n: nat): seq<Saved>
    requires n <= |frames| && interval != 0
  {
    if n == 0 then []
    else
      var k := n - 1;
      SavesUpTo(videoName, frames, detect, classes, interval, k)
        + (if Sampled(k, interval) && Qualifies(detect(frames[k]), classes, VideoShotThreshold)
           then [Saved(OutputName(videoName, k, 0), frames[k])] else [])
  }

  /** Exactly the sampled frames with a qualifying detection are written, once each, under
      the name carrying their frame index. */
  lemma {:induction false} SavesUpToContents(videoName: string, frames: seq<Frame>, detect: Frame -> Results,
                                             classes: seq<string>, interval: int, n: nat, s: Saved)
    requires n <= |frames| && interval != 0
    ensures s in SavesUpTo(videoName, frames, detect, classes, interval, n) <==>
      exists k :: 0 <= k < n && Sampled(k, interval) && Qualifies(detect(frames[k]), classes, VideoShotThreshold)
                  && s == Saved(OutputName(videoName, k, 0), frames[k])
    decreases n
  {
    if n > 0 {
      SavesUpToContents(videoName, frames, detect, classes, interval, n - 1, s);
    }
  }

  /** Different frames of one video never get the same file name. */
  lemma OutputNamesDistinct(videoName: string, k: nat, k': nat)
    requires k != k'
    ensures OutputName(videoName, k, 0) != OutputName(videoName, k', 0)
  {
    var a := NatToString(k);
    var b := NatToString(k');
    var pre := videoName + "_frame";
    var post := "_detection" + NatToString(0) + ".jpg";
    assert OutputName(videoName, k, 0) == pre + a + post;
    assert OutputName(videoName, k', 0) == pre + b + post;
    if pre + a + post == pre + b + post {
      assert |a| == |b|;
      assert a == (pre + a + post)[|pre|..|pre| + |a|];
      assert b == (pre + b + post)[|pre|..|pre| + |b|];
      NatToStringInjective(k, k');
    }
  }

  /**
   * `process_video` over the decoded frames of one video: every frame whose index is a
   * multiple of `interval` is tested at the fixed threshold, and each returned image is
   * written; `savedCount` counts the writes.
   */
  method ProcessVideo(videoName: string, frames: seq<Frame>, detect: Frame -> Results,
                      classes: seq<string>, interval: int)
    returns (r: Result<seq<Saved>, VideoError>, savedCount: nat)
    ensures interval == 0 && |frames| > 0 ==> r == Failure(ZeroFrameInterval)
    ensures interval != 0 ==> r == Success(SavesUpTo(videoName, frames, detect, classes, interval, |frames|))
    ensures r.Success? ==> savedCount == |r.value|
  {
    var saved: seq<Saved> := [];
    savedCount := 0;
    if interval == 0 {
      if |frames| > 0 {
        return Failure(ZeroFrameInterval), 0;
      }
      return Success([]), 0;
    }
    var frameCount := 0;
    while frameCount < |frames|
      invariant 0 <= frameCount <= |frames|
      invariant saved == SavesUpTo(videoName, frames, detect, classes, interval, frameCount)
      invariant savedCount == |saved|
    {
      if frameCount % interval == 0 {
        var images := AnnotateImage(frames[frameCount], detect(frames[frameCount]), classes, VideoShotThreshold);
        var i := 0;
        while i < |images|
          invariant 0 <= i <= |images|
          invariant saved == SavesUpTo(videoName, frames, detect, classes, interval, frameCount)
                             + (if i == 1 then [Saved(OutputName(videoName, frameCount, 0), frames[frameCount])] else [])
          invariant savedCount == |saved|
        {
          saved := saved + [Saved(OutputName(videoName, frameCount, i), images[i])];
          savedCount := savedCount + 1;
          i := i + 1;
        }
      }
      frameCount := frameCount + 1;
    }
    r := Success(saved);
  }

  /** Two videos with the same stem and different extensions write the same file names,
      so the later one overwrites the earlier one's images. */
  lemma SameStemSameNames(k: nat)
    ensures SplitExt("clip.mp4").0 == SplitExt("clip.MOV").0 == "clip"
    ensures OutputName(SplitExt("clip.mp4").0, k, 0) == OutputName(SplitExt("clip.MOV").0, k, 0)
  {
    SplitExtStemDotThree("clip", 'm', 'p', '4');
    SplitExtStemDotThree("clip", 'M', 'O', 'V');
    ClipNames();
  }

  lemma ClipNames()
    ensures "clip.mp4" == "clip" + ['.', 'm', 'p', '4']
    ensures "clip.MOV" == "clip" + ['.', 'M', 'O', 'V']
  {
  }

  // ---------------------------------------------------------------------------------------
  // Image filtering and duplicate removal

  /** A `.jpg` file of the folder and, if `cv2.imread` could load it, the detector results. */
  datatype StoredImage = StoredImage(path: string, results: Option<Results>)

  /** The image loaded and no box of it qualifies, so `filter_images` deletes it. */
  predicate Rejected(img: StoredImage, classes: seq<string>, threshold: PyFloat)
  {
    img.results.Some? && !Qualifies(img.results.value, classes, threshold)
  }

  /** `filter_images`: the paths deleted are exactly those of loadable images without a
      qualifying detection; unloadable images are skipped and kept. */
  function ImagesToDelete(images: seq<StoredImage>, classes: seq<string>, threshold: PyFloat): (r: seq<string>)
    ensures forall i :: 0 <= i < |images| && Rejected(images[i], classes, threshold) ==> images[i].path in r
    ensures forall p :: p in r ==>
      exists i :: 0 <= i < |images| && images[i].path == p && Rejected(images[i], classes, threshold)
    decreases |images|
  {
    if |images| == 0 then []
    else
      var rest := ImagesToDelete(images[1..], classes, threshold);
      assert forall i :: 1 <= i < |images| ==> images[i] == images[1..][i - 1];
      assert forall p :: p in rest ==>
        exists i :: 0 <= i < |images| && images[i].path == p && Rejected(images[i], classes, threshold) by {
        forall p | p in rest
          ensures exists i :: 0 <= i < |images| && images[i].path == p && Rejected(images[i], classes, threshold)
        {
          var i :| 0 <= i < |images[1..]| && images[1..][i].path == p && Rejected(images[1..][i], classes, threshold);
          assert images[i + 1] == images[1..][i];
        }
      }
      if Rejected(images[0], classes, threshold) then [images[0].path] + rest else rest
  }

  /** A confidence argument of `nan` makes every comparison false, so filtering deletes every
      image it can load. */
  lemma NanThresholdDeletesEveryLoadedImage(images: seq<StoredImage>, classes: seq<string>)
    ensures forall i :: 0 <= i < |images| && images[i].results.Some? ==> images[i].path in ImagesToDelete(images, classes, NaN)
  {
  }

  /** A file to deduplicate and the hex digest of its contents. */
  datatype HashedFile = HashedFile(path: string, digest: string)

  /** The file at position `i` is the first with its digest. */
  predicate FirstOfDigest(files: seq<HashedFile>, i: int)
    requires 0 <= i < |files|
  {
    forall j :: 0 <= j < i ==> files[j].digest != files[i].digest
  }

  /** `path` is the path of a file that is not the first of its digest. */
  predicate IsLaterCopy(files: seq<HashedFile>, path: string)
  {
    exists i :: 0 <= i < |files| && files[i].path == path && !FirstOfDigest(files, i)
  }

  /** The digests of a list of files. */
  function Digests(files: seq<HashedFile>): set<string>
  {
    set f | f in files :: f.digest
  }

  lemma DigestsAppend(files: seq<HashedFile>, f: HashedFile)
    ensures Digests(files + [f]) == Digests(files) + {f.digest}
  {
    assert forall g :: g in files + [f] <==> g in files || g == f;
  }

  /** A file is the first of its digest exactly when no earlier file has that digest. */
  lemma FirstIffUnseen(files: seq<HashedFile>, n: int)
    requires 0 <= n < |files|
    ensures FirstOfDigest(files, n) <==> files[n].digest !in Digests(files[..n])
  {
    if files[n].digest in Digests(files[..n]) {
      var g :| g in files[..n] && g.digest == files[n].digest;
      var j :| 0 <= j < n && files[..n][j] == g;
    }
  }

  /**
   * The outcome of the duplicate pass over `files` in order: the files kept (the first of
   * each digest, whose path goes into the remembered map) and the paths deleted.
   */
  function Dedupe(files: seq<HashedFile>): (r: (seq<HashedFile>, seq<string>))
    ensures |r.0| + |r.1| == |files|
  {
    if files == [] then ([], [])
    else
      var prefix := files[..|files| - 1];
      var f := files[|files| - 1];
      var prev := Dedupe(prefix);
      if f.digest in Digests(prefix) then (prev.0, prev.1 + [f.path]) else (prev.0 + [f], prev.1)
  }

  /** The kept files carry every digest of the folder, and no other. */
  lemma {:induction false} DedupeKeepsEveryDigest(files: seq<HashedFile>)
    ensures Digests(Dedupe(files).0) == Digests(files)
  {
    if files != [] {
      var prefix := files[..|files| - 1];
      var f := files[|files| - 1];
      assert files == prefix + [f];
      DedupeKeepsEveryDigest(prefix);
      DigestsAppend(prefix, f);
      DigestsAppend(Dedupe(prefix).0, f);
    }
  }

  /** No two kept files share a digest. */
  lemma {:induction false} DedupeKeepsDistinctDigests(files: seq<HashedFile>)
    ensures forall a, b :: 0 <= a < b < |Dedupe(files).0| ==> Dedupe(files).0[a].digest != Dedupe(files).0[b].digest
  {
    if files != [] {
      var prefix := files[..|files| - 1];
      var f := files[|files| - 1];
      var prev := Dedupe(prefix).0;
      DedupeKeepsDistinctDigests(prefix);
      if f.digest !in Digests(prefix) {
        DedupeKeepsEveryDigest(prefix);
        forall a | 0 <= a < |prev|
          ensures prev[a].digest != f.digest
        {
          assert prev[a] in prev;
        }
      }
    }
  }

  /** Dropping the last file does not change which earlier files are first of their digest. */
  lemma FirstOfDigestPrefix(files: seq<HashedFile>, m: int, i: int)
    requires 0 <= i < m <= |files|
    ensures FirstOfDigest(files[..m], i) == FirstOfDigest(files, i)
  {
    assert forall j :: 0 <= j <= i ==> files[..m][j] == files[j];
  }

  /**
   * Every first occurrence is kept and the path of every later occurrence is deleted; every
   * kept file and every deleted path comes from the folder.
   */
  lemma DedupeDecides(files: seq<HashedFile>)
    ensures forall i :: 0 <= i < |files| && FirstOfDigest(files, i) ==> files[i] in Dedupe(files).0
    ensures forall i :: 0 <= i < |files| && !FirstOfDigest(files, i) ==> files[i].path in Dedupe(files).1
    ensures forall k :: 0 <= k < |Dedupe(files).0| ==> Dedupe(files).0[k] in files
    ensures forall k :: 0 <= k < |Dedupe(files).1| ==> IsLaterCopy(files, Dedupe(files).1[k])
  {
    DedupeKeepsFirsts(files);
    DedupeDeletesLater(files);
  }

  /** The kept files are exactly drawn from the first occurrences. */
  lemma {:induction false} DedupeKeepsFirsts(files: seq<HashedFile>)
    ensures forall i :: 0 <= i < |files| && FirstOfDigest(files, i) ==> files[i] in Dedupe(files).0
    ensures forall k :: 0 <= k < |Dedupe(files).0| ==> Dedupe(files).0[k] in files
  {
    if files != [] {
      var m := |files| - 1;
      var prefix := files[..m];
      var f := files[m];
      var prev := Dedupe(prefix).0;
      var r := Dedupe(files).0;
      DedupeKeepsFirsts(prefix);
      FirstIffUnseen(files, m);
      assert r == prev || r == prev + [f];
      forall i | 0 <= i < |files| && FirstOfDigest(files, i)
        ensures files[i] in r
      {
        if i < m {
          FirstOfDigestPrefix(files, m, i);
          assert prefix[i] == files[i];
        }
      }
      forall k | 0 <= k < |r|
        ensures r[k] in files
      {
        if k < |prev| {
          assert prev[k] in prefix;
        }
      }
    }
  }

  /** The deleted paths are exactly those of the later occurrences. */
  lemma {:induction false} DedupeDeletesLater(files: seq<HashedFile>)
    ensures forall i :: 0 <= i < |files| && !FirstOfDigest(files, i) ==> files[i].path in Dedupe(files).1
    ensures forall k :: 0 <= k < |Dedupe(files).1| ==> IsLaterCopy(files, Dedupe(files).1[k])
  {
    if files != [] {
      var m := |files| - 1;
      var prefix := files[..m];
      var f := files[m];
      var prev := Dedupe(prefix).1;
      var r := Dedupe(files).1;
      DedupeDeletesLater(prefix);
      FirstIffUnseen(files, m);
      assert r == prev || r == prev + [f.path];
      forall i | 0 <= i < |files| && !FirstOfDigest(files, i)
        ensures files[i].path in r
      {
        if i < m {
          FirstOfDigestPrefix(files, m, i);
          assert prefix[i] == files[i];
        }
      }
      forall k | 0 <= k < |r|
        ensures IsLaterCopy(files, r[k])
      {
        if k < |prev| {
          var i :| 0 <= i < |prefix| && prefix[i].path == prev[k] && !FirstOfDigest(prefix, i);
          FirstOfDigestPrefix(files, m, i);
          assert files[i] == prefix[i] && r[k] == prev[k];
        } else {
          assert r == prev + [f.path] && !FirstOfDigest(files, m);
          assert files[m].path == r[k];
        }
      }
    } else {
      assert |Dedupe(files).1| == 0;
    }
  }

  /** Extending the prefix by one file extends the outcome by that file's verdict. */
  lemma DedupeStep(files: seq<HashedFile>, n: int)
    requires 0 <= n < |files|
    ensures Digests(files[..n + 1]) == Digests(files[..n]) + {files[n].digest}
    ensures Dedupe(files[..n + 1]) ==
      if files[n].digest in Digests(files[..n]) then (Dedupe(files[..n]).0, Dedupe(files[..n]).1 + [files[n].path])
      else (Dedupe(files[..n]).0 + [files[n]], Dedupe(files[..n]).1)
  {
    assert files[..n + 1][..n] == files[..n];
    assert files[..n + 1] == files[..n] + [files[n]];
    DigestsAppend(files[..n], files[n]);
  }

  /**
   * `remove_duplicate_images`: walk the files in order, remembering the first path seen for
   * each digest, and delete every later file whose digest was already seen.
   */
  method RemoveDuplicateImages(files: seq<HashedFile>) returns (kept: seq<HashedFile>, deleted: seq<string>)
    ensures (kept, deleted) == Dedupe(files)
    ensures forall a, b :: 0 <= a < b < |kept| ==> kept[a].digest != kept[b].digest
    ensures Digests(kept) == Digests(files)
    ensures forall i :: 0 <= i < |files| && FirstOfDigest(files, i) ==> files[i] in kept
    ensures forall i :: 0 <= i < |files| && !FirstOfDigest(files, i) ==> files[i].path in deleted
    ensures |kept| + |deleted| == |files|
  {
    var seen: map<string, string> := map[];
    kept := [];
    deleted := [];
    var n := 0;
    while n < |files|
      invariant 0 <= n <= |files|
      invariant seen.Keys == Digests(files[..n])
      invariant (kept, deleted) == Dedupe(files[..n])
    {
      var f := files[n];
      DedupeStep(files, n);
      if f.digest in seen {
        deleted := deleted + [f.path];
      } else {
        kept := kept + [f];
        seen := seen[f.digest := f.path];
      }
      n := n + 1;
    }
    assert files[..n] == files;
    DedupeKeepsDistinctDigests(files);
    DedupeKeepsEveryDigest(files);
    DedupeDecides(files);
  }
}

=== FILE: wrappers.dfy ===
/** Option and Result values used for the repository's `None` returns and error exits. */
module Wrappers {

  /** A value that may be absent; Python's `None` in the modelled code. */
  datatype Option<+T> = None | Some(value: T)
  {
    /** The held value, or `default` when absent. */
    function GetOr(default: T): T
    {
      match this
      case Some(v) => v
      case None => default
    }
  }

  /** The outcome of an operation that either yields a value or fails with an error. */
  datatype Result<+R, +E> = Success(value: R) | Failure(error: E)
}
